=== FILE: README.md ===
# Voice pipeline of a Discord conversation bot, in Dafny

This project models the sequential core of a Discord voice bot. The bot listens to users in a voice channel. Each user's audio is cut into utterances, and each utterance goes to a live conversation session. The text reply is turned into speech by an HTTP speech server, and the speech is played back into the channel as a Base64-identified track.

The model is written as pure functions over immutable records of maps and sequences:

- **Speaker buffer store** (`SpeakerBuffers`). It holds per-speaker chunk lists and span start times, one store-wide "last add" time, and the FIFO of finished utterances. A speaker is flushed after 2000 ms of store-wide silence or once the span is older than 10000 ms.
- **FIFO queues.** A generic queue (`Fifo`), the ingest queue (`InputQueue`) and the playback queue with its independent "playing" flag (`PlaybackQueue`).
- **Session registry** (`Sessions`). It covers:
  - creating and removing sessions;
  - accumulating streamed reply fragments and completing the pending reply slot when a turn ends;
  - the guards and the pending slot of a send;
  - shutdown and active-session counting.
- **Speech step** (`Tts`). The status check of the speech call, and the job that enqueues the Base64 text of the speech.
- **The two processors.** The synchronous-conversation processor (`SyncProcessor`) and the fully asynchronous one (`AsyncProcessor`). Both are chains of stages that may fail.
- **PCM amplification** (`Pcm`). The 16-bit little-endian sample loop.
- **Base64** (`Base64`), as in section 4 of RFC 4648, with the leniency of Java's basic decoder.
- **Playback.** The in-memory seekable stream (`SeekableStream`), the track built from a Base64 identifier (`StreamTrack`), and the audio handler's "processing" flag machine (`PlaybackDriver`).

Everything the core reads from outside becomes an explicit parameter. That covers:

- clock readings: `now` for a pass, plus one `stamps` entry for every flush. An add reads one `now` for both the span start and the last-add time; see "Left out";
- the visiting order of the speaker map (`order`);
- how a session connection ends: connected, failed to connect, or connected but failed to start receiving;
- the messages a session delivers while a send waits;
- the external audio converter;
- the speech server's HTTP outcome;
- the reply to an utterance, the track loader's answer and the player's next frame.

Three behaviours of the code are worth naming, because a reader might expect otherwise:

- A second send for the same guild does not fail as busy. It overwrites the pending slot.
- Removing a session does not release the pending slot.
- The Base64 decoder accepts unpadded final units.

## Model

| member | source | states |
|---|---|---|
| SpeakerBuffers.AddAudioData | src/main/java/com/mumeinosato/audio/SharedAudioData.java:49-57 | An untracked speaker gets a one-chunk list and start time `now`. A tracked speaker keeps its start time. The chunk goes last, other speakers are untouched, and the last-add time becomes `now`. |
| SpeakerBuffers.ShouldMove | src/main/java/com/mumeinosato/audio/SharedAudioData.java:31-36 | A speaker with no chunks never flushes. One with chunks flushes when the store has been silent for strictly more than 2000 ms, or its span started strictly more than 10000 ms ago. At exactly 2000 and 10000 ms nothing flushes. A speaker without a recorded start falls back to the last-add time, so only silence can flush it. |
| SpeakerBuffers.MoveDataToQueue | src/main/java/com/mumeinosato/audio/SharedAudioData.java:38-47 | A flush queues one utterance holding the speaker's chunks joined in order, with length equal to the sum of the chunk lengths. It drops the speaker's list and start time and sets the last-add time to the flush's clock reading. |
| SpeakerBuffers.CheckAndMoveData | src/main/java/com/mumeinosato/audio/SharedAudioData.java:22-29 | A pass only removes speakers and never alters a survivor's chunks. It only appends to the utterance queue. A pass that queues nothing changes nothing. |
| SpeakerBuffers.PassFlushedContent | src/main/java/com/mumeinosato/audio/SharedAudioData.java:38-44 | Every utterance a pass queues belongs to a speaker the pass removed, and carries that speaker's chunks in arrival order. |
| SpeakerBuffers.PassFlushedComplete | src/main/java/com/mumeinosato/audio/SharedAudioData.java:25-28 | Every speaker a pass removes has its utterance queued by that pass. |
| SpeakerBuffers.PassFlushedDistinct | src/main/java/com/mumeinosato/audio/SharedAudioData.java:43-44 | No speaker is queued twice in one pass, because a flush removes the speaker. |
| SpeakerBuffers.PassStartTimes | src/main/java/com/mumeinosato/audio/SharedAudioData.java:44-45 | A pass drops the start times of exactly the speakers it flushed. |
| SpeakerBuffers.PassValid | src/main/java/com/mumeinosato/audio/SharedAudioData.java:43-53 | A pass keeps every tracked speaker with a start time and a non-empty list. |
| SpeakerBuffers.PassLastAddTime | src/main/java/com/mumeinosato/audio/SharedAudioData.java:46 | After a pass that flushed, the last-add time is one of the pass's flush clock readings. |
| SpeakerBuffers.FlushKeepsIneligible | src/main/java/com/mumeinosato/audio/SharedAudioData.java:31-36 | A flush stamped no earlier than `now` cannot make another speaker eligible at `now`. |
| SpeakerBuffers.IneligibleUntouched | src/main/java/com/mumeinosato/audio/SharedAudioData.java:25-28 | With a monotone clock, a speaker ineligible when the pass starts keeps its chunks and start time through the pass. |
| SpeakerBuffers.PassSettles | src/main/java/com/mumeinosato/audio/SharedAudioData.java:22-36 | After a pass that visits every tracked speaker with a monotone clock, no remaining speaker is eligible at the same `now`. |
| SpeakerBuffers.QuietPassIsIdentity | src/main/java/com/mumeinosato/audio/SharedAudioData.java:25-28 | A pass over a store with no eligible speaker changes nothing, in any order. |
| SpeakerBuffers.SecondPassFlushesNothing | src/main/java/com/mumeinosato/audio/SharedAudioData.java:22-47 | A second pass at the same `now` right after a full pass, in any order, flushes nothing. |
| SpeakerBuffers.LongSpanFlushed | src/main/java/com/mumeinosato/audio/SharedAudioData.java:35 | A visited speaker whose span began more than 10000 ms before `now` is always flushed, whatever the silence. |
| SpeakerBuffers.AllFlushesBySpan | src/main/java/com/mumeinosato/audio/SharedAudioData.java:35 | When the last add is no earlier than `now`, every flush in the pass is due to the 10000 ms span rule. |
| SpeakerBuffers.LaterFlushesBySpan | src/main/java/com/mumeinosato/audio/SharedAudioData.java:22-47 | With a monotone clock, only the first utterance of a pass can be due to silence. Every later one is due to the span rule. |
| SpeakerBuffers.FreshSpanAfterFlush | src/main/java/com/mumeinosato/audio/SharedAudioData.java:43-53 | A flushed speaker's next chunk opens a one-chunk span starting at that chunk's time. |
| SpeakerBuffers.ThreeAdds | src/main/java/com/mumeinosato/audio/SharedAudioData.java:49-57 | Three chunks from one speaker into an empty store make one three-chunk span that starts at the first chunk. |
| SpeakerBuffers.ThreeChunksThenSilence | src/main/java/com/mumeinosato/audio/SharedAudioData.java:22-70 | Three chunks, then a pass more than 2000 ms after the last one, queue exactly one utterance: the three chunks joined. |
| SpeakerBuffers.TakeAudioData | src/main/java/com/mumeinosato/audio/SharedAudioData.java:72-74 | Taking removes and returns the oldest utterance, or returns nothing and changes nothing when none is queued. |
| Bytes.CombineData | src/main/java/com/mumeinosato/audio/SharedAudioData.java:59-70 | The array copy loop produces the chunks joined in order, with length equal to the sum of the chunk lengths. |
| Bytes.ConcatLength | src/main/java/com/mumeinosato/audio/SharedAudioData.java:60-61 | The joined length equals the summed chunk lengths. |
| Fifo.Enqueue | src/main/java/com/mumeinosato/audio/AudioInputQueue.java:43-46 | An offer grows the size by one and puts the item last, keeping the others. |
| Fifo.Dequeue | src/main/java/com/mumeinosato/audio/AudioInputQueue.java:52-54 | A poll returns the head and shrinks the size by one, or returns nothing and changes nothing when the queue is empty. |
| Fifo.HasNext | src/main/java/com/mumeinosato/audio/AudioInputQueue.java:60-70 | `hasNext` holds iff the size is positive. |
| Fifo.FifoOrder | src/test/java/com/mumeinosato/audio/AudioInputQueueTest.java:50-77 | Draining a queue filled with a sequence yields that sequence: first in, first out. |
| Fifo.Drain | src/test/java/com/mumeinosato/audio/AudioInputQueueTest.java:112-121 | A drain loop while `hasNext` takes every item in order and leaves the queue empty. |
| InputQueue.New | src/test/java/com/mumeinosato/audio/AudioInputQueueTest.java:21-24 | A fresh queue has no next item, size 0, and its dequeue returns nothing. |
| InputQueue.Enqueue | src/main/java/com/mumeinosato/audio/AudioInputQueue.java:43-46 | The size grows by one and the triple of guild, user and data is last. |
| InputQueue.Dequeue | src/main/java/com/mumeinosato/audio/AudioInputQueue.java:52-54 | A non-empty dequeue returns the head and leaves exactly the items after it, in order. An empty one returns nothing and changes nothing. |
| InputQueue.HasNext | src/main/java/com/mumeinosato/audio/AudioInputQueue.java:60-70 | `hasNext` holds iff the size is positive. |
| InputQueue.EnqueueDequeueRoundTrip | src/test/java/com/mumeinosato/audio/AudioInputQueueTest.java:31-47 | Enqueue then dequeue returns the same guild, user and data and leaves an empty queue. |
| InputQueue.ThreeItemsInOrder | src/test/java/com/mumeinosato/audio/AudioInputQueueTest.java:51-77 | Three enqueued items come out in order, with the size counting down 2, 1, 0. |
| InputQueue.DrainAfterEnqueues | src/test/java/com/mumeinosato/audio/AudioInputQueueTest.java:109-121 | After N enqueues, draining while `hasNext` yields exactly the N items and leaves size 0. |
| PlaybackQueue.New | src/main/java/com/mumeinosato/audio/AudioPlaybackQueue.java:17-18 | A new queue is empty, not playing, and its dequeue returns nothing. |
| PlaybackQueue.Enqueue | src/main/java/com/mumeinosato/audio/AudioPlaybackQueue.java:24-27 | The item goes last, the size grows by one, and the playing flag is unchanged. |
| PlaybackQueue.Dequeue | src/main/java/com/mumeinosato/audio/AudioPlaybackQueue.java:33-35 | A dequeue returns the head and keeps the rest in order, or returns nothing when empty. The flag is unchanged. |
| PlaybackQueue.HasNext | src/main/java/com/mumeinosato/audio/AudioPlaybackQueue.java:41-43 | `hasNext` holds iff the size is positive. |
| PlaybackQueue.SetPlaying | src/main/java/com/mumeinosato/audio/AudioPlaybackQueue.java:65-72 | Afterwards `isPlaying` returns the value set, and the queued items are unchanged. |
| PlaybackQueue.StepConserves | src/main/java/com/mumeinosato/audio/AudioPlaybackQueue.java:24-35 | One operation neither loses nor invents items. The polled item plus what remains equals what was there plus what was offered. |
| PlaybackQueue.RunConservesItems | src/test/java/com/mumeinosato/audio/AudioPlaybackQueueTest.java:31-44 | Over any run of offers, polls and flag changes, the polled items followed by the remaining ones equal the initial items followed by the offered ones. |
| PlaybackQueue.RunSize | src/test/java/com/mumeinosato/audio/AudioPlaybackQueueTest.java:33-43 | Size equals the initial size plus offers minus successful polls. |
| PlaybackQueue.RunFlag | src/test/java/com/mumeinosato/audio/AudioPlaybackQueueTest.java:51-58 | The flag after a run is the last value set, or the initial one if none was set. Queue operations never change it. |
| PlaybackQueue.DrainAfterEnqueues | src/test/java/com/mumeinosato/audio/AudioPlaybackQueueTest.java:89-100 | N enqueues followed by a full drain yield exactly the N items, in order. |
| Sessions.CreateSession | src/main/java/com/mumeinosato/gemini/SessionManager.java:67-98 | An existing session gives true with no change. Otherwise the result is true exactly when the connection succeeds and the receive loop starts. A failed connection changes nothing. Once connected, an active session with a fresh identity and an empty buffer are stored, and stay stored even when starting the receive loop then fails. The pending slots are untouched, and session identities stay unique. |
| Sessions.FailedStartBlocksRetry | src/main/java/com/mumeinosato/gemini/SessionManager.java:68-71 | After a creation that connected but failed to start receiving, which reports false, the session is registered and active. So any retry reports true and changes nothing. |
| Sessions.RemoveSession | src/main/java/com/mumeinosato/gemini/SessionManager.java:100-110 | Removes the guild's session and buffer and leaves other guilds and all pending slots unchanged. It reports whether a session existed. |
| Sessions.ReceiveFailed | src/main/java/com/mumeinosato/gemini/SessionManager.java:149-156 | A failed receive loop deactivates the session object it was started for, and only while that same object is registered. It stays registered. Every other guild, a replacement session, the buffers and the slots are unchanged. |
| Sessions.LateFailureSparesReplacement | src/main/java/com/mumeinosato/gemini/SessionManager.java:100-110 | After a guild's session is removed and created again, the old object is no longer registered. A late receive failure of the old object leaves the active replacement alone. |
| Sessions.ShutdownAllSessions | src/main/java/com/mumeinosato/gemini/SessionManager.java:192-197 | Every registered session is shut down and the map emptied. Buffers and slots stay. |
| Sessions.ActiveCountBounds | src/main/java/com/mumeinosato/gemini/SessionManager.java:199-206 | A guild is counted iff it has an active session. The count is at most the number of sessions and is zero iff no guild has an active session. |
| Sessions.GetActiveSessionCount | src/main/java/com/mumeinosato/gemini/SessionManager.java:199-201 | The counting loop returns the number of active sessions. |
| Sessions.EmptyTurnGivesNoReply | src/main/java/com/mumeinosato/gemini/SessionManager.java:161-171 | A turn that ends while the buffer is still empty completes nothing, so the send gives no reply. |
| Sessions.HasActiveSession | src/main/java/com/mumeinosato/gemini/SessionManager.java:203-206 | Holds exactly when the guild has a registered session that is active, that is, when the guild is among the active guilds the count is taken over. |
| Sessions.SessionLifecycle | src/main/java/com/mumeinosato/gemini/SessionManager.java:203-206 | A session created for a new guild is active, a removed one is not, and after shutdown none is. |
| Sessions.Trim | src/main/java/com/mumeinosato/gemini/SessionManager.java:164 | The result is the input with its leading and trailing characters at or below U+0020 cut off, and it neither starts nor ends with one. |
| Sessions.TrimIdempotent | src/main/java/com/mumeinosato/gemini/SessionManager.java:164 | Trimming twice is trimming once. |
| Sessions.HandleResponse | src/main/java/com/mumeinosato/gemini/SessionManager.java:159-190 | A fragment appends its text parts to the guild's buffer in order and completes nothing. A turn end with a non-empty buffer completes a pending slot with the trimmed buffer and clears it. A turn end with an empty buffer changes nothing. Other guilds are untouched. |
| Sessions.SendAudioData | src/main/java/com/mumeinosato/gemini/SessionManager.java:112-147 | No session, or null or empty audio, gives nothing and leaves every slot untouched. Otherwise the guild's slot is removed when the call returns. |
| Sessions.FragmentsAccumulate | src/main/java/com/mumeinosato/gemini/SessionManager.java:177-187 | A run of fragments appends all their text, in order, to the guild's buffer and completes no slot. |
| Sessions.PendingWithoutTurnEnd | src/main/java/com/mumeinosato/gemini/SessionManager.java:161-172 | Without a turn-complete message from the guild, its pending slot stays pending. |
| Sessions.SendTimesOutWithoutTurnEnd | src/main/java/com/mumeinosato/gemini/SessionManager.java:124-146 | If the session never completes a turn while the caller waits, the send gives nothing, whatever slot existed before. |
| Sessions.TurnCompletes | src/main/java/com/mumeinosato/gemini/SessionManager.java:161-172 | Fragments followed by a turn end complete the pending slot with their trimmed text and clear the buffer. |
| Sessions.SendReturnsTrimmedTurn | src/main/java/com/mumeinosato/gemini/SessionManager.java:124-146 | From an empty buffer, fragments then a turn end make the send return exactly the trimmed fragment text and leave the buffer empty. |
| Sessions.SlotStaysTrimmed | src/main/java/com/mumeinosato/gemini/SessionManager.java:164-169 | Message handling only ever completes a slot with trimmed text. |
| Sessions.SendReplyIsTrimmed | src/main/java/com/mumeinosato/gemini/SessionManager.java:140 | Every reply a send returns is already trimmed. |
| Base64.EncodeUnit | src/main/java/com/mumeinosato/audio/SyncGeminiAsyncTTSProcessor.java:103 | Three bytes encode as four alphabet characters. |
| Base64.EncodeLength | src/main/java/com/mumeinosato/audio/SyncGeminiAsyncTTSProcessor.java:103 | The encoding of n bytes has 4 * ceil(n / 3) characters. |
| Base64.DecodeEncode | src/main/java/com/mumeinosato/audio/CustomInputStreamAudioTrack.java:21 | The track's decoder inverts the processors' encoder: decode(encode(b)) == b for all byte strings. |
| Pcm.Signed | src/main/java/com/mumeinosato/audio/SyncGeminiAsyncTTSProcessor.java:225 | A Java byte's signed value is in [-128, 127] and congruent to its bit pattern. |
| Pcm.DecodeSample | src/main/java/com/mumeinosato/audio/SyncGeminiAsyncTTSProcessor.java:225 | A little-endian byte pair decodes to a 16-bit signed sample. |
| Pcm.Clamp | src/main/java/com/mumeinosato/audio/SyncGeminiAsyncTTSProcessor.java:228 | The result lies in [-32768, 32767]. It is the input when the input is in range, and the nearer bound otherwise. |
| Pcm.SampleRoundTrip | src/main/java/com/mumeinosato/audio/SyncGeminiAsyncTTSProcessor.java:231-232 | Splitting a 16-bit sample into low and high bytes and decoding them gives the sample back. |
| Pcm.PairRoundTrip | src/main/java/com/mumeinosato/audio/SyncGeminiAsyncTTSProcessor.java:225-232 | Decoding a byte pair and re-splitting it gives the pair back. |
| Pcm.Amplified | src/main/java/com/mumeinosato/audio/SyncGeminiAsyncTTSProcessor.java:222-233 | The output has the input's length. Every output pair decodes to the input pair's sample times the gain, clamped to the 16-bit range. A trailing odd byte is 0. |
| Pcm.UnitGainIsIdentityOnPairs | src/main/java/com/mumeinosato/audio/SyncGeminiAsyncTTSProcessor.java:126 | With gain 1, every complete byte pair is reproduced exactly and a trailing odd byte becomes 0. |
| Pcm.AmplifyPcmData | src/main/java/com/mumeinosato/audio/SyncGeminiAsyncTTSProcessor.java:221-235 | The in-place loop over pairs computes the amplified bytes and keeps the length. The asynchronous processor has an identical copy at AsyncAudioProcessor.java:202-216. |
| Tts.CallTtsApi | src/main/java/com/mumeinosato/audio/SyncGeminiAsyncTTSProcessor.java:145-156 | The body is returned iff the exchange produced a response with status 200. Nothing is returned on any other status or on an I/O failure. The asynchronous processor applies the same check at AsyncAudioProcessor.java:126-137. |
| Tts.RunTtsJob | src/main/java/com/mumeinosato/audio/SyncGeminiAsyncTTSProcessor.java:94-104 | On success, exactly one item is added at the back, and it decodes to the speech bytes. On failure nothing changes. The flag never changes. |
| Tts.RunTtsJobsAppends | src/main/java/com/mumeinosato/audio/SyncGeminiAsyncTTSProcessor.java:90-112 | Jobs finishing in some order append exactly the speeches of the successful ones, in that order. |
| Tts.SpeechCount | src/main/java/com/mumeinosato/audio/SyncGeminiAsyncTTSProcessor.java:96-104 | One queued speech per successful job. |
| Tts.AllSucceedAddsN | src/test/java/com/mumeinosato/audio/AsyncAudioProcessingTest.java:71-82 | N jobs that all succeed add exactly N playback items. |
| Tts.SpeechesOrderIndependent | src/test/java/com/mumeinosato/audio/AsyncAudioProcessingTest.java:71-82 | Any two completion orders of the same jobs queue the same multiset of items. |
| SyncProcessor.ProcessNextAudio | src/main/java/com/mumeinosato/audio/SyncGeminiAsyncTTSProcessor.java:54-85 | An empty queue changes nothing. Otherwise exactly the head is removed. A failed preparation stops before the conversation call. Otherwise the registry is the one the head's send leaves behind. A job exists exactly when that send replies, and then it answers the head's user with the reply text, which is already trimmed. Empty prepared audio changes no session and makes no job. |
| SyncProcessor.ProcessTtsAsync | src/main/java/com/mumeinosato/audio/SyncGeminiAsyncTTSProcessor.java:90-112 | A failed speech call enqueues nothing. A successful one enqueues exactly one item, which decodes to the speech bytes. |
| SyncProcessor.FullExchange | src/main/java/com/mumeinosato/audio/SyncGeminiAsyncTTSProcessor.java:54-104 | Prepared audio, a turn of fragments and a 200 from the speech server give one job with the trimmed text and one playback item decoding to the speech. |
| SyncProcessor.TimeoutDispatchesNothing | src/main/java/com/mumeinosato/audio/SyncGeminiAsyncTTSProcessor.java:72-76 | A session that never completes the turn consumes the utterance and dispatches no job. |
| AsyncProcessor.ProcessAudioAsync | src/main/java/com/mumeinosato/audio/AsyncAudioProcessor.java:56-93 | A failed preparation changes nothing. Otherwise the registry is the one the send leaves behind. With no reply the playback queue is unchanged, and with a reply it is what the speech job makes of it. Empty prepared audio changes nothing. A missing session or a failed speech call adds nothing. Any addition is one item that decodes to the speech bytes. |
| AsyncProcessor.FullSuccessEnqueuesOne | src/main/java/com/mumeinosato/audio/AsyncAudioProcessor.java:62-85 | Full success adds exactly one playback item, equal to the Base64 of the speech bytes. |
| AsyncProcessor.TimeoutEnqueuesNothing | src/main/java/com/mumeinosato/audio/AsyncAudioProcessor.java:69-73 | A missing conversation reply stops the chain before the speech call, and nothing is enqueued. |
| AsyncProcessor.AgreesWithSyncProcessor | src/main/java/com/mumeinosato/audio/AsyncAudioProcessor.java:56-93 | The asynchronous chain gives the same registry and playback queue as queueing the utterance alone, processing it synchronously, and running its speech job. |
| AsyncProcessor.ThreeJobsThreeItems | src/test/java/com/mumeinosato/audio/AsyncAudioProcessingTest.java:71-82 | Three successful jobs add three playback items. |
| SeekableStream.Open | src/main/java/com/mumeinosato/audio/CustomSeekableInputStream.java:20-24 | A new stream is at position 0 over the whole array, with content length equal to the array length. |
| SeekableStream.Read | src/main/java/com/mumeinosato/audio/CustomSeekableInputStream.java:26-34 | A byte read returns the next byte (0..255) and advances the position by exactly 1. At the end it returns -1 and changes nothing. |
| SeekableStream.Skip | src/main/java/com/mumeinosato/audio/CustomSeekableInputStream.java:43-48 | The count skipped is between 0 and the unread count (0 for n <= 0), and the position moves by exactly that count. |
| SeekableStream.BufferedRead | src/main/java/com/mumeinosato/audio/CustomSeekableInputStream.java:37-38 | An out-of-bounds offset or length is an error, a zero length reads 0, an exhausted stream reads -1. Otherwise min(len, unread) bytes are copied into exactly that window of the destination. |
| SeekableStream.ReadInto | src/main/java/com/mumeinosato/audio/CustomSeekableInputStream.java:36-41 | As written: the position changes by the returned count, including -1, while the unread bytes lose exactly the bytes copied. So it differs from the corrected read only in the position. |
| SeekableStream.ReadIntoFixed | src/main/java/com/mumeinosato/audio/CustomSeekableInputStream.java:36-41 | Corrected: the position advances only by the bytes actually read. |
| SeekableStream.Reset | src/main/java/com/mumeinosato/audio/CustomSeekableInputStream.java:55-58 | Reset always fails. |
| SeekableStream.MarkSupported | src/main/java/com/mumeinosato/audio/CustomSeekableInputStream.java:60-63 | Mark/reset is never supported. |
| SeekableStream.Close | src/main/java/com/mumeinosato/audio/CustomSeekableInputStream.java:65-72 | Closing the in-memory array changes nothing observable. |
| SeekableStream.CanSeekHard | src/main/java/com/mumeinosato/audio/CustomSeekableInputStream.java:79-82 | The stream never seeks by itself. |
| SeekableStream.SeekHard | src/main/java/com/mumeinosato/audio/CustomSeekableInputStream.java:84-85 | A hard seek leaves the stream unchanged. |
| SeekableStream.TrackInfoProviders | src/main/java/com/mumeinosato/audio/CustomSeekableInputStream.java:87-90 | The provider list is empty. |
| SeekableStream.ReadKeepsConsistent | src/main/java/com/mumeinosato/audio/CustomSeekableInputStream.java:27-34 | A byte read keeps the stream in step with its array and returns the byte at the position. |
| SeekableStream.SkipKeepsConsistent | src/main/java/com/mumeinosato/audio/CustomSeekableInputStream.java:44-48 | A skip keeps the stream in step with its array. |
| SeekableStream.ReadSkipRunKeepsConsistent | src/main/java/com/mumeinosato/audio/CustomSeekableInputStream.java:27-53 | Over any run of byte reads and skips, position plus available equals the array length. |
| SeekableStream.ReadIntoFixedKeepsConsistent | src/main/java/com/mumeinosato/audio/CustomSeekableInputStream.java:37-41 | The corrected bulk read keeps the stream in step and copies the bytes at the position. |
| SeekableStream.FixedRunKeepsConsistent | src/main/java/com/mumeinosato/audio/CustomSeekableInputStream.java:27-53 | With the corrected bulk read, every run of operations keeps position plus available equal to the array length. |
| SeekableStream.ReadIntoAtEndMovesPositionBack | src/main/java/com/mumeinosato/audio/CustomSeekableInputStream.java:37-41 | As written, a bulk read on an exhausted stream returns -1 and moves the position back by one. |
| SeekableStream.ReadIntoFixedAtEndKeepsPosition | src/main/java/com/mumeinosato/audio/CustomSeekableInputStream.java:37-41 | The corrected bulk read leaves an exhausted stream exactly as it was. |
| StreamTrack.NewTrack | src/main/java/com/mumeinosato/audio/CustomInputStreamAudioTrack.java:19-24 | Construction succeeds iff the identifier is valid Base64. The track's bytes are its decoding, and the info, factory and manager are kept. |
| StreamTrack.ShallowClone | src/main/java/com/mumeinosato/audio/CustomInputStreamAudioTrack.java:40-43 | A clone of a constructed track is the same track: same info, factory, manager and bytes. |
| StreamTrack.Process | src/main/java/com/mumeinosato/audio/CustomInputStreamAudioTrack.java:26-34 | Each playback gets a fresh stream at position 0 over the track's bytes. A friendly failure is swallowed, and any other failure propagates with its message. |
| StreamTrack.EncodedAudioRoundTrip | src/main/java/com/mumeinosato/audio/CustomInputStreamAudioTrack.java:19-48 | A track built from the Base64 of some audio carries exactly that audio, returns its factory and manager from the getters, and clones to itself. |
| PlaybackDriver.New | src/main/java/com/mumeinosato/audio/AudioHandler.java:26-35 | A new handler is idle, plays nothing and has no frame. |
| PlaybackDriver.CanReceiveCombined | src/main/java/com/mumeinosato/audio/AudioHandler.java:37-40 | The handler never takes the mixed stream. |
| PlaybackDriver.CanReceiveUser | src/main/java/com/mumeinosato/audio/AudioHandler.java:42-45 | The handler always takes per-user audio. |
| PlaybackDriver.HandleUserAudio | src/main/java/com/mumeinosato/audio/AudioHandler.java:47-54 | Received audio goes last in that user's buffer, and the user's span starts now if it was new. Every other speaker's buffer and every other start time are unchanged. It runs no boundary check and leaves the queue, the flag, the track and the frame alone. |
| PlaybackDriver.LoadAndPlayTrack | src/main/java/com/mumeinosato/audio/AudioHandler.java:94-129 | The current track is stopped first. A loaded track plays. No match or a load failure clears the flag. A playlist changes nothing more. |
| PlaybackDriver.TakeAndAnswer | src/main/java/com/mumeinosato/audio/AudioHandler.java:58-81 | While processing, the handler neither runs the boundary check nor takes an utterance. |
| PlaybackDriver.CanProvide | src/main/java/com/mumeinosato/audio/AudioHandler.java:56-92 | The result is whether a frame was produced, and the flag is up afterwards only then. A busy poll stays busy exactly when a frame comes. An idle poll that takes an utterance with a non-empty reply whose track loads, or loads as a playlist, is busy afterwards exactly when a frame comes. A loaded track is the Base64 of the reply, and a playlist leaves no track. A busy poll leaves the store and track alone. An idle poll takes at most the oldest utterance. A null, empty or failed reply loads nothing and lowers the flag. A failed load lowers it and stops the track. |
| PlaybackDriver.Provide20MsAudio | src/main/java/com/mumeinosato/audio/AudioHandler.java:131-135 | The audio handed over is the last frame's bytes. |
| PlaybackDriver.IsOpus | src/main/java/com/mumeinosato/audio/AudioHandler.java:138-142 | Frames are always Opus. |
| PlaybackDriver.ReplyTrackPlaysReplyBytes | src/main/java/com/mumeinosato/audio/AudioHandler.java:64-71 | An idle handler with a finished utterance, a non-empty reply, a loaded track and a frame is busy afterwards. The track it plays decodes to exactly the reply bytes. |

## Left out

- Concurrency is not modelled. That covers the concurrent maps and lists, the executors, `CompletableFuture` and the atomic flag. Every operation is one whole step, and an interleaving is a sequence of steps. The speech jobs' completion order is an explicit sequence.
- The 15-second wait for a reply is not modelled as a timer. A timeout is the absence of a turn-complete message among the events delivered while the caller waits. Interrupts and execution failures give the same "no reply" result.
- The floating-point amplification factor is replaced by an integer gain with clamping. Both call sites use 1.0.
- Audio preparation beyond amplification is a converter function: WAV writing, the ffmpeg run, temporary files and creating the audio directory. A failure there is the converter returning nothing.
- The speech request is an input outcome. This covers the UTF-8 and Base64 encoding of the text, URL encoding and the HTTP client. The text sent to the server is not modelled.
- The conversation SDK is abstract:
  - connecting is the `connected` flag;
  - sending realtime input has no modelled effect, and its failures are only logged;
  - receiving is the delivered event sequence.
- Lavaplayer is abstract:
  - the player is a track identifier and a frame input;
  - the loader is an outcome input, and its callback runs synchronously within the call;
  - the container reader and source manager are opaque tokens.
- The handler's reply source is an input of reply bytes, no reply, or an exception. The call at AudioHandler.java:68 does not match any available processor signature.
- Logging and console output are not modelled.
- Utterance-independent plumbing is not part of this model: the scheduler that triggers the boundary check, the slash commands, the bot bootstrap and configuration, the microphone demo, the source manager and the older ffmpeg/HTTP processor.
- Sessions.GetActiveSessionCount: returns an unbounded count; the source casts a long to int, which only matters beyond 2^31 sessions.
- Sessions.SendAudioData: a null audio array is `None`; the Java `byte[]` and Option are the only representation change.
- SeekableStream.Skip: returns min(n, unread), the skip of the underlying byte-array stream. The buffered wrapper may skip fewer bytes when only part of its buffer is left. The position still moves by exactly the count returned, which is all the invariants use.
- SpeakerBuffers.AddAudioData: uses one clock reading `now` for both the new span's start time and the last-add time. The source reads the clock twice, at SharedAudioData.java:51 and :56, so those two may differ by the time between the readings.
- PlaybackDriver.Provide20MsAudio: returns nothing when no frame was ever provided. The source would throw a NullPointerException on the null last frame; the model does not represent that exception.
- AsyncProcessor.ProcessAudioAsync: takes the audio as non-null bytes. In the source, a null array fails inside the job, before any stage, and enqueues nothing.

## Findings

| source | as written | input that shows it | evidently intended | confidence | as-written member | corrected member |
|---|---|---|---|---|---|---|
| src/main/java/com/mumeinosato/audio/CustomSeekableInputStream.java:37-42 | The bulk read adds its return value to the position unconditionally, including the -1 the buffered stream returns at the end of the data. | Open a stream over any array and skip all of it. A read into a one-byte buffer at offset 0 with length 1 then returns -1, and the position drops from n to n - 1 while nothing is left to read. | The position advances by the number of bytes actually read, and stays put at the end, as the single-byte read already does. | not executed | SeekableStream.ReadIntoAtEndMovesPositionBack | SeekableStream.FixedRunKeepsConsistent |

=== FILE: async_processor.dfy ===
/**
 * The fully asynchronous processor: one utterance runs the whole chain
 * (prepare, conversation, speech, playback enqueue) in a single job. Each
 * stage may fail, and a failure ends the job without an enqueue.
 */
module AsyncProcessor {
  import opened Wrappers
  import opened Bytes
  import InputQueue
  import Sessions
  import PlaybackQueue
  import Tts
  import SyncProcessor

  /**
   * The whole chain for one utterance. The session's messages and the
   * speech server's answer are inputs; the result is the session registry
   * and the playback queue afterwards.
   */
  function ProcessAudioAsync(guildId: Sessions.GuildId, userId: string, audio: Bytes,
                             sessions: Sessions.Manager, pq: PlaybackQueue.PlaybackQueue,
                             convert: SyncProcessor.Converter, events: seq<Sessions.Event>,
                             outcome: Tts.HttpOutcome): (r: (Sessions.Manager, PlaybackQueue.PlaybackQueue))
    ensures r.1.playing == pq.playing
    ensures SyncProcessor.PrepareAudioData(audio, convert).None? ==> r == (sessions, pq)
    ensures guildId !in sessions.sessions ==> r.1 == pq
    ensures Tts.CallTtsApi(outcome).None? ==> r.1 == pq
    ensures SyncProcessor.PrepareAudioData(audio, convert).Some? ==>
      var prepared := SyncProcessor.PrepareAudioData(audio, convert).value;
      var (reply, sessions') := Sessions.SendAudioData(sessions, guildId, Some(prepared), events);
      && r.0 == sessions'
      && (reply.None? ==> r.1 == pq)
      && (reply.Some? ==> r.1 == Tts.RunTtsJob(pq, outcome))
      && (|prepared| == 0 ==> r == (sessions, pq))
    ensures r.1 != pq ==>
      && |r.1.audio.items| == |pq.audio.items| + 1
      && r.1.audio.items[..|pq.audio.items|] == pq.audio.items
      && SyncProcessor.Base64Decodes(r.1.audio.items[|pq.audio.items|], outcome.body)
  {
    match SyncProcessor.PrepareAudioData(audio, convert)
    case None => (sessions, pq)
    case Some(prepared) =>
      var (reply, sessions') := Sessions.SendAudioData(sessions, guildId, Some(prepared), events);
      match reply
      case None => (sessions', pq)
      case Some(_) => (sessions', Tts.RunTtsJob(pq, outcome))
  }

  /**
   * Full success: a prepared utterance whose session completes a turn with
   * text, followed by a 200 from the speech server, adds exactly one item,
   * and that item decodes back to the speech server's bytes.
   */
  lemma FullSuccessEnqueuesOne(guildId: Sessions.GuildId, userId: string, audio: Bytes,
                               sessions: Sessions.Manager, pq: PlaybackQueue.PlaybackQueue,
                               convert: SyncProcessor.Converter,
                               fragments: seq<Sessions.Event>, turnEnd: Sessions.Event, speech: Bytes)
    requires guildId in sessions.sessions
    requires SyncProcessor.PrepareAudioData(audio, convert).Some?
    requires |SyncProcessor.PrepareAudioData(audio, convert).value| > 0
    requires Sessions.BufferOf(sessions, guildId) == ""
    requires forall k :: 0 <= k < |fragments| ==> Sessions.IsFragment(fragments[k], guildId)
    requires Sessions.IsTurnEnd(turnEnd, guildId) && Sessions.FragmentText(fragments) != ""
    ensures var (_, pq') := ProcessAudioAsync(guildId, userId, audio, sessions, pq, convert,
                                              fragments + [turnEnd], Tts.Response(200, speech));
      && |pq'.audio.items| == |pq.audio.items| + 1
      && SyncProcessor.Base64Decodes(pq'.audio.items[|pq.audio.items|], speech)
  {
    Sessions.SendReturnsTrimmedTurn(sessions, guildId, SyncProcessor.PrepareAudioData(audio, convert).value,
                                    fragments, turnEnd);
  }

  /** A session that never completes the turn ends the job with no enqueue, whatever the speech server would say. */
  lemma TimeoutEnqueuesNothing(guildId: Sessions.GuildId, userId: string, audio: Bytes,
                               sessions: Sessions.Manager, pq: PlaybackQueue.PlaybackQueue,
                               convert: SyncProcessor.Converter, events: seq<Sessions.Event>,
                               outcome: Tts.HttpOutcome)
    requires forall k :: 0 <= k < |events| ==> !Sessions.IsTurnEnd(events[k], guildId)
    ensures ProcessAudioAsync(guildId, userId, audio, sessions, pq, convert, events, outcome).1 == pq
  {
    match SyncProcessor.PrepareAudioData(audio, convert)
    case None =>
    case Some(prepared) =>
      if guildId in sessions.sessions && |prepared| > 0 {
        Sessions.SendTimesOutWithoutTurnEnd(sessions, guildId, prepared, events);
      }
  }

  /**
   * The two processors agree: running the asynchronous chain on an
   * utterance gives the same registry and playback queue as queueing that
   * utterance alone, taking it with the synchronous processor, and running
   * the speech job it dispatches (if any).
   */
  lemma AgreesWithSyncProcessor(guildId: Sessions.GuildId, userId: string, audio: Bytes,
                                sessions: Sessions.Manager, pq: PlaybackQueue.PlaybackQueue,
                                convert: SyncProcessor.Converter, events: seq<Sessions.Event>,
                                outcome: Tts.HttpOutcome)
    ensures var input := InputQueue.Enqueue(InputQueue.New(), guildId, userId, audio);
      var step := SyncProcessor.ProcessNextAudio(input, sessions, convert, events);
      var pq' := if step.job.Some? then SyncProcessor.ProcessTtsAsync(pq, step.job.value, outcome) else pq;
      && step.input.items == []
      && ProcessAudioAsync(guildId, userId, audio, sessions, pq, convert, events, outcome) == (step.sessions, pq')
  {
    var input := InputQueue.Enqueue(InputQueue.New(), guildId, userId, audio);
    assert input.items == [InputQueue.AudioData(guildId, userId, audio)];
  }

  /** Three utterances answered and spoken successfully leave three more items, in whichever order their jobs finish. */
  lemma ThreeJobsThreeItems(pq: PlaybackQueue.PlaybackQueue, a: Bytes, b: Bytes, c: Bytes)
    ensures var done := [Tts.Response(200, a), Tts.Response(200, b), Tts.Response(200, c)];
      |Tts.RunTtsJobs(pq, done).audio.items| == |pq.audio.items| + 3
  {
    Tts.AllSucceedAddsN(pq, [Tts.Response(200, a), Tts.Response(200, b), Tts.Response(200, c)]);
  }
}

=== FILE: base64.dfy ===
/**
 * Base64 as in section 4 of RFC 4648 (standard alphabet, `=` padding),
 * with the decoding rules of Java's basic decoder: the final unit may be
 * padded (`xx==`, `xxx=`) or left unpadded (`xx`, `xxx`), the unused low
 * bits of a short final unit are ignored, and any other character, a
 * lone final character, a misplaced `=` or anything after padding is an
 * error.
 */
module Base64 {
  import opened Wrappers
  import opened Bytes

  /** A 6-bit value, the index of an alphabet character. */
  type Index = x: int | 0 <= x < 64

  predicate IsBase64Char(c: char)
  {
    ('A' <= c <= 'Z') || ('a' <= c <= 'z') || ('0' <= c <= '9') || c == '+' || c == '/'
  }

  /** The alphabet of section 4 of RFC 4648: A-Z, a-z, 0-9, '+', '/'. */
  function IndexToChar(i: Index): (c: char)
    ensures IsBase64Char(c)
  {
    if i < 26 then (65 + i) as char
    else if i < 52 then (97 + i - 26) as char
    else if i < 62 then (48 + i - 52) as char
    else if i == 62 then '+'
    else '/'
  }

  function CharToIndex(c: char): (i: Index)
    requires IsBase64Char(c)
  {
    if 'A' <= c <= 'Z' then c as int - 65
    else if 'a' <= c <= 'z' then c as int - 97 + 26
    else if '0' <= c <= '9' then c as int - 48 + 52
    else if c == '+' then 62
    else 63
  }

  /** The alphabet lookup is inverted by the reverse lookup. */
  lemma CharIndexRoundTrip(i: Index)
    ensures CharToIndex(IndexToChar(i)) == i
  {
  }

  /** Three bytes, 24 bits, as four 6-bit alphabet characters, most significant first. */
  function EncodeUnit(a: byte, b: byte, c: byte): (s: string)
    ensures |s| == 4 && forall k :: 0 <= k < 4 ==> IsBase64Char(s[k])
  {
    [IndexToChar(a / 4), IndexToChar((a % 4) * 16 + b / 16), IndexToChar((b % 16) * 4 + c / 64), IndexToChar(c % 64)]
  }

  /** The encoding: whole units, then a final unit padded to four characters. */
  function Encode(b: Bytes): (s: string)
    decreases |b|
  {
    if |b| == 0 then ""
    else if |b| == 1 then [IndexToChar(b[0] / 4), IndexToChar((b[0] % 4) * 16), '=', '=']
    else if |b| == 2 then [IndexToChar(b[0] / 4), IndexToChar((b[0] % 4) * 16 + b[1] / 16), IndexToChar((b[1] % 16) * 4), '=']
    else EncodeUnit(b[0], b[1], b[2]) + Encode(b[3..])
  }

  /** The first byte packed in the first two characters of a unit. */
  function Byte0(i0: Index, i1: Index): byte { i0 * 4 + i1 / 16 }

  /** The second byte packed in characters two and three of a unit. */
  function Byte1(i1: Index, i2: Index): byte { (i1 % 16) * 16 + i2 / 4 }

  /** The third byte packed in the last two characters of a unit. */
  function Byte2(i2: Index, i3: Index): byte { (i2 % 4) * 64 + i3 }

  predicate IsFullUnit(s: string)
  {
    |s| >= 4 && IsBase64Char(s[0]) && IsBase64Char(s[1]) && IsBase64Char(s[2]) && IsBase64Char(s[3])
  }

  /** The last unit: two or three characters, optionally followed by exactly the padding that completes four. */
  function DecodeFinal(s: string): (r: Option<Bytes>)
  {
    if (|s| == 2 || (|s| == 4 && s[2] == '=' && s[3] == '=')) && IsBase64Char(s[0]) && IsBase64Char(s[1]) then
      Some([Byte0(CharToIndex(s[0]), CharToIndex(s[1]))])
    else if (|s| == 3 || (|s| == 4 && s[3] == '=')) && IsBase64Char(s[0]) && IsBase64Char(s[1]) && IsBase64Char(s[2]) then
      Some([Byte0(CharToIndex(s[0]), CharToIndex(s[1])), Byte1(CharToIndex(s[1]), CharToIndex(s[2]))])
    else None
  }

  /** Java's basic decoder; `None` where it throws `IllegalArgumentException`. */
  function Decode(s: string): (r: Option<Bytes>)
    decreases |s|
  {
    if |s| == 0 then Some([])
    else if IsFullUnit(s) then
      match Decode(s[4..])
      case None => None
      case Some(rest) =>
        var i0, i1, i2, i3 := CharToIndex(s[0]), CharToIndex(s[1]), CharToIndex(s[2]), CharToIndex(s[3]);
        Some([Byte0(i0, i1), Byte1(i1, i2), Byte2(i2, i3)] + rest)
    else DecodeFinal(s)
  }

  /** The bit packing of one unit is undone by the unpacking. */
  lemma UnitRoundTrip(a: byte, b: byte, c: byte)
    ensures var i0, i1, i2, i3 := a / 4, (a % 4) * 16 + b / 16, (b % 16) * 4 + c / 64, c % 64;
      Byte0(i0, i1) == a && Byte1(i1, i2) == b && Byte2(i2, i3) == c
  {
  }

  /** Every encoding is four characters per started group of three bytes. */
  lemma {:induction false} EncodeLength(b: Bytes)
    ensures |Encode(b)| == 4 * ((|b| + 2) / 3)
    decreases |b|
  {
    if |b| >= 3 {
      EncodeLength(b[3..]);
      assert (|b| + 2) / 3 == (|b[3..]| + 2) / 3 + 1;
    }
  }

  /** A final unit of two characters and two pads decodes to the byte it packs. */
  lemma DecodeTwoChars(c0: char, c1: char)
    requires IsBase64Char(c0) && IsBase64Char(c1)
    ensures Decode([c0, c1, '=', '=']) == Some([Byte0(CharToIndex(c0), CharToIndex(c1))])
  {
    var s := [c0, c1, '=', '='];
    assert !IsFullUnit(s);
  }

  /** The bit packing of a lone final byte is undone by the unpacking. */
  lemma OneByteRoundTrip(a: byte)
    ensures Byte0(a / 4, (a % 4) * 16) == a
  {
  }

  /** A one-byte encoding (two characters and two pads) decodes to that byte. */
  lemma DecodeEncodeOne(b: Bytes)
    requires |b| == 1
    ensures Decode(Encode(b)) == Some(b)
  {
    var i0, i1 := b[0] / 4, (b[0] % 4) * 16;
    var c0, c1 := IndexToChar(i0), IndexToChar(i1);
    assert Encode(b) == [c0, c1, '=', '='];
    DecodeTwoChars(c0, c1);
    CharIndexRoundTrip(i0);
    CharIndexRoundTrip(i1);
    assert CharToIndex(c0) == i0 && CharToIndex(c1) == i1;
    OneByteRoundTrip(b[0]);
    assert [Byte0(i0, i1)] == b;
  }

  /** A final unit of three characters and one pad decodes to the two bytes it packs. */
  lemma DecodeThreeChars(c0: char, c1: char, c2: char)
    requires IsBase64Char(c0) && IsBase64Char(c1) && IsBase64Char(c2)
    ensures Decode([c0, c1, c2, '=']) ==
      Some([Byte0(CharToIndex(c0), CharToIndex(c1)), Byte1(CharToIndex(c1), CharToIndex(c2))])
  {
    var s := [c0, c1, c2, '='];
    assert !IsFullUnit(s);
  }

  /** The bit packing of a final pair of bytes is undone by the unpacking. */
  lemma TwoByteRoundTrip(a: byte, b: byte)
    ensures Byte0(a / 4, (a % 4) * 16 + b / 16) == a
    ensures Byte1((a % 4) * 16 + b / 16, (b % 16) * 4) == b
  {
  }

  /** A two-byte encoding (three characters and one pad) decodes to those bytes. */
  lemma DecodeEncodeTwo(b: Bytes)
    requires |b| == 2
    ensures Decode(Encode(b)) == Some(b)
  {
    var i0, i1, i2 := b[0] / 4, (b[0] % 4) * 16 + b[1] / 16, (b[1] % 16) * 4;
    var c0, c1, c2 := IndexToChar(i0), IndexToChar(i1), IndexToChar(i2);
    assert Encode(b) == [c0, c1, c2, '='];
    DecodeThreeChars(c0, c1, c2);
    CharIndexRoundTrip(i0);
    CharIndexRoundTrip(i1);
    CharIndexRoundTrip(i2);
    assert CharToIndex(c0) == i0 && CharToIndex(c1) == i1 && CharToIndex(c2) == i2;
    TwoByteRoundTrip(b[0], b[1]);
    assert [Byte0(i0, i1), Byte1(i1, i2)] == b;
  }

  /** Decoding a full unit in front of more text: the unit's three bytes in front of the rest's decoding. */
  lemma DecodeUnitThenRest(u: string, t: string)
    requires |u| == 4 && IsFullUnit(u)
    ensures Decode(u + t) == match Decode(t)
      case None => None
      case Some(rest) =>
        Some([Byte0(CharToIndex(u[0]), CharToIndex(u[1])), Byte1(CharToIndex(u[1]), CharToIndex(u[2])),
              Byte2(CharToIndex(u[2]), CharToIndex(u[3]))] + rest)
  {
    var s := u + t;
    assert s[4..] == t;
    assert s[0] == u[0] && s[1] == u[1] && s[2] == u[2] && s[3] == u[3];
    assert IsFullUnit(s);
  }

  /** The three bytes a unit encodes are what its four characters unpack to. */
  lemma EncodeUnitUnpacks(a: byte, b: byte, c: byte)
    ensures var u := EncodeUnit(a, b, c);
      [Byte0(CharToIndex(u[0]), CharToIndex(u[1])), Byte1(CharToIndex(u[1]), CharToIndex(u[2])),
       Byte2(CharToIndex(u[2]), CharToIndex(u[3]))] == [a, b, c]
  {
    var i0, i1, i2, i3 := a / 4, (a % 4) * 16 + b / 16, (b % 16) * 4 + c / 64, c % 64;
    CharIndexRoundTrip(i0);
    CharIndexRoundTrip(i1);
    CharIndexRoundTrip(i2);
    CharIndexRoundTrip(i3);
    UnitRoundTrip(a, b, c);
    var u := EncodeUnit(a, b, c);
    assert CharToIndex(u[0]) == i0 && CharToIndex(u[1]) == i1 && CharToIndex(u[2]) == i2 && CharToIndex(u[3]) == i3;
  }

  /** A sequence of at least three elements is its first three followed by the rest. */
  lemma SplitThree<T>(s: seq<T>)
    requires |s| >= 3
    ensures [s[0], s[1], s[2]] + s[3..] == s
  {
    assert s == s[..3] + s[3..];
  }

  /** Decoding a full unit in front of a decodable rest gives the unit's three bytes in front of the rest's bytes. */
  lemma DecodeEncodeStep(b: Bytes)
    requires |b| >= 3
    requires Decode(Encode(b[3..])) == Some(b[3..])
    ensures Decode(Encode(b)) == Some(b)
  {
    var u := EncodeUnit(b[0], b[1], b[2]);
    var t := Encode(b[3..]);
    assert Encode(b) == u + t;
    DecodeUnitThenRest(u, t);
    EncodeUnitUnpacks(b[0], b[1], b[2]);
    var unit := [Byte0(CharToIndex(u[0]), CharToIndex(u[1])), Byte1(CharToIndex(u[1]), CharToIndex(u[2])),
                 Byte2(CharToIndex(u[2]), CharToIndex(u[3]))];
    assert Decode(u + t) == Some(unit + b[3..]);
    assert unit == [b[0], b[1], b[2]];
    SplitThree(b);
  }

  /** Round trip: decoding an encoding returns exactly the encoded bytes. */
  lemma {:induction false} DecodeEncode(b: Bytes)
    ensures Decode(Encode(b)) == Some(b)
    decreases |b|
  {
    if |b| == 0 {
    } else if |b| == 1 {
      DecodeEncodeOne(b);
    } else if |b| == 2 {
      DecodeEncodeTwo(b);
    } else {
      DecodeEncode(b[3..]);
      DecodeEncodeStep(b);
    }
  }
}

=== FILE: bytes.dfy ===
/** Raw byte buffers and their concatenation. */
module Bytes {

  /** A Java `byte`, held as its unsigned bit pattern 0..255. */
  type byte = x: int | 0 <= x < 256

  type Bytes = seq<byte>

  /** The chunks joined end to end, in order. */
  function Concat(chunks: seq<Bytes>): Bytes
  {
    if |chunks| == 0 then [] else chunks[0] + Concat(chunks[1..])
  }

  /** The sum of the chunk lengths. */
  function TotalLength(chunks: seq<Bytes>): nat
  {
    if |chunks| == 0 then 0 else |chunks[0]| + TotalLength(chunks[1..])
  }

  /** Appending a chunk appends its bytes at the end of the concatenation. */
  lemma {:induction false} ConcatAppend(chunks: seq<Bytes>, c: Bytes)
    ensures Concat(chunks + [c]) == Concat(chunks) + c
  {
    if |chunks| == 0 {
      assert chunks + [c] == [c];
    } else {
      assert (chunks + [c])[1..] == chunks[1..] + [c];
      ConcatAppend(chunks[1..], c);
    }
  }

  /** The sum of the lengths grows by the length of an appended chunk. */
  lemma {:induction false} TotalLengthAppend(chunks: seq<Bytes>, c: Bytes)
    ensures TotalLength(chunks + [c]) == TotalLength(chunks) + |c|
  {
    if |chunks| == 0 {
      assert chunks + [c] == [c];
    } else {
      assert (chunks + [c])[1..] == chunks[1..] + [c];
      TotalLengthAppend(chunks[1..], c);
    }
  }

  /** The concatenation is exactly as long as the chunks together. */
  lemma {:induction false} ConcatLength(chunks: seq<Bytes>)
    ensures |Concat(chunks)| == TotalLength(chunks)
  {
    if |chunks| > 0 {
      ConcatLength(chunks[1..]);
    }
  }

  /** Splitting the chunk list splits the total length. */
  lemma {:induction false} TotalLengthSplit(chunks: seq<Bytes>, i: nat)
    requires i <= |chunks|
    ensures TotalLength(chunks) == TotalLength(chunks[..i]) + TotalLength(chunks[i..])
  {
    if i > 0 {
      assert chunks[1..][..i-1] == chunks[1..i];
      assert chunks[1..][i-1..] == chunks[i..];
      TotalLengthSplit(chunks[1..], i - 1);
      assert chunks[..i][1..] == chunks[1..i];
    } else {
      assert chunks[..i] == [];
      assert chunks[i..] == chunks;
    }
  }

  /**
   * Joins the chunks into one fresh buffer: the total size is computed
   * first, then each chunk is copied at the running offset.
   */
  method CombineData(chunks: seq<Bytes>) returns (combined: Bytes)
    ensures combined == Concat(chunks)
    ensures |combined| == TotalLength(chunks)
  {
    var size := TotalLength(chunks);
    var decoded := new byte[size](_ => 0);
    var index := 0;
    for i := 0 to |chunks|
      invariant index == TotalLength(chunks[..i])
      invariant index <= size
      invariant decoded[..index] == Concat(chunks[..i])
    {
      var bytes := chunks[i];
      TotalLengthSplit(chunks, i + 1);
      assert chunks[..i + 1] == chunks[..i] + [bytes];
      TotalLengthAppend(chunks[..i], bytes);
      ConcatAppend(chunks[..i], bytes);
      for j := 0 to |bytes|
        invariant index + |bytes| <= size
        invariant decoded[..index + j] == Concat(chunks[..i]) + bytes[..j]
      {
        decoded[index + j] := bytes[j];
        assert decoded[..index + j + 1] == decoded[..index + j] + [bytes[j]];
        assert bytes[..j + 1] == bytes[..j] + [bytes[j]];
      }
      assert bytes[..|bytes|] == bytes;
      index := index + |bytes|;
    }
    assert chunks[..|chunks|] == chunks;
    ConcatLength(chunks);
    combined := decoded[..];
    assert decoded[..] == decoded[..index];
  }
}

=== FILE: fifo.dfy ===
/**
 * The first-in first-out container behind both pipeline queues and the
 * flushed-utterance queue of the speaker buffer store: a non-blocking
 * `offer`, a `poll` that yields `None` instead of blocking, `isEmpty`
 * and `size`.
 */
module Fifo {
  import opened Wrappers

  /** The queued items, oldest first. */
  datatype Queue<T> = Queue(items: seq<T>)

  function Empty<T>(): (q: Queue<T>)
    ensures Size(q) == 0 && !HasNext(q)
  {
    Queue([])
  }

  function Size<T>(q: Queue<T>): nat
  {
    |q.items|
  }

  /** True exactly when at least one item is queued. */
  function HasNext<T>(q: Queue<T>): (r: bool)
    ensures r <==> Size(q) > 0
  {
    q.items != []
  }

  /** Adds `x` behind every item already queued. */
  function Enqueue<T>(q: Queue<T>, x: T): (r: Queue<T>)
    ensures Size(r) == Size(q) + 1
    ensures r.items[..Size(q)] == q.items && r.items[Size(q)] == x
  {
    Queue(q.items + [x])
  }

  /**
   * Removes and returns the oldest item; on an empty queue returns `None`
   * and leaves the queue as it was.
   */
  function Dequeue<T>(q: Queue<T>): (r: (Option<T>, Queue<T>))
    ensures Size(q) == 0 ==> r.0 == None && r.1 == q
    ensures Size(q) > 0 ==> r.0 == Some(q.items[0]) && Size(r.1) == Size(q) - 1
    ensures Size(q) > 0 ==> [r.0.value] + r.1.items == q.items
  {
    if q.items == [] then (None, q) else (Some(q.items[0]), Queue(q.items[1..]))
  }

  /** The queue after offering every element of `xs`, in order. */
  function EnqueueAll<T>(q: Queue<T>, xs: seq<T>): Queue<T>
    decreases |xs|
  {
    if |xs| == 0 then q else EnqueueAll(Enqueue(q, xs[0]), xs[1..])
  }

  /** The items obtained by polling until the queue reports empty. */
  function DrainAll<T>(q: Queue<T>): seq<T>
    decreases Size(q)
  {
    match Dequeue(q)
    case (None, _) => []
    case (Some(x), rest) => [x] + DrainAll(rest)
  }

  /** Offering a batch appends it behind the items already queued. */
  lemma {:induction false} EnqueueAllAppends<T>(q: Queue<T>, xs: seq<T>)
    ensures EnqueueAll(q, xs).items == q.items + xs
    decreases |xs|
  {
    if |xs| > 0 {
      EnqueueAllAppends(Enqueue(q, xs[0]), xs[1..]);
      assert q.items + [xs[0]] + xs[1..] == q.items + xs;
    }
  }

  /** Polling until empty yields every queued item, oldest first. */
  lemma {:induction false} DrainAllYieldsItems<T>(q: Queue<T>)
    ensures DrainAll(q) == q.items
    decreases Size(q)
  {
    if q.items != [] {
      DrainAllYieldsItems(Queue(q.items[1..]));
    }
  }

  /** FIFO: draining after a batch of offers returns the batch in offer order. */
  lemma FifoOrder<T>(xs: seq<T>)
    ensures DrainAll(EnqueueAll(Empty(), xs)) == xs
  {
    EnqueueAllAppends(Empty(), xs);
    DrainAllYieldsItems(EnqueueAll(Empty<T>(), xs));
  }

  /**
   * The consumer loop `while (hasNext()) dequeue()`: every poll yields an
   * item, the items come out oldest first, and the queue ends empty.
   */
  method Drain<T>(q: Queue<T>) returns (taken: seq<T>, rest: Queue<T>)
    ensures taken == q.items
    ensures |taken| == Size(q)
    ensures Size(rest) == 0 && !HasNext(rest)
  {
    taken := [];
    rest := q;
    while HasNext(rest)
      invariant taken + rest.items == q.items
      decreases Size(rest)
    {
      var (item, remaining) := Dequeue(rest);
      taken := taken + [item.value];
      rest := remaining;
    }
  }
}

=== FILE: input_queue.dfy ===
/**
 * The ingest queue: completed utterances, each tagged with the guild and
 * user it came from, waiting for the conversation call.
 */
module InputQueue {
  import opened Wrappers
  import opened Bytes
  import Fifo

  /** One queued utterance: guild id, user id and the raw audio. */
  datatype AudioData = AudioData(guildId: string, userId: string, data: Bytes)

  type InputQueue = Fifo.Queue<AudioData>

  function New(): (q: InputQueue)
    ensures !HasNext(q) && Size(q) == 0 && Dequeue(q).0 == None
  {
    Fifo.Empty()
  }

  /** Wraps the three values into one item and offers it at the tail. */
  function Enqueue(q: InputQueue, guildId: string, userId: string, audio: Bytes): (r: InputQueue)
    ensures Size(r) == Size(q) + 1
    ensures r.items[Size(q)] == AudioData(guildId, userId, audio)
    ensures r.items[..Size(q)] == q.items
  {
    Fifo.Enqueue(q, AudioData(guildId, userId, audio))
  }

  /** The oldest item and the remaining queue, or `None` on an empty queue. */
  function Dequeue(q: InputQueue): (r: (Option<AudioData>, InputQueue))
    ensures Size(q) == 0 ==> r.0 == None && r.1 == q
    ensures Size(q) > 0 ==> r.0 == Some(q.items[0]) && r.1.items == q.items[1..]
  {
    Fifo.Dequeue(q)
  }

  function HasNext(q: InputQueue): (r: bool)
    ensures r <==> Size(q) > 0
  {
    Fifo.HasNext(q)
  }

  function Size(q: InputQueue): nat
  {
    Fifo.Size(q)
  }

  /** A single item offered to an empty queue comes back unchanged, and the queue is empty again. */
  lemma EnqueueDequeueRoundTrip(guildId: string, userId: string, audio: Bytes)
    ensures var (item, rest) := Dequeue(Enqueue(New(), guildId, userId, audio));
      && item == Some(AudioData(guildId, userId, audio))
      && !HasNext(rest) && Size(rest) == 0 && Dequeue(rest).0 == None
  {
  }

  /** Three items offered in order are polled in the same order, the size dropping by one each time. */
  lemma ThreeItemsInOrder(a: AudioData, b: AudioData, c: AudioData)
    ensures
      var q3 := Enqueue(Enqueue(Enqueue(New(), a.guildId, a.userId, a.data), b.guildId, b.userId, b.data), c.guildId, c.userId, c.data);
      var (x1, q2) := Dequeue(q3);
      var (x2, q1) := Dequeue(q2);
      var (x3, q0) := Dequeue(q1);
      && Size(q3) == 3
      && x1 == Some(a) && Size(q2) == 2
      && x2 == Some(b) && Size(q1) == 1
      && x3 == Some(c) && Size(q0) == 0 && !HasNext(q0)
  {
  }

  /** After `n` offers, draining while `hasNext` yields the `n` items in offer order and leaves the queue empty. */
  method DrainAfterEnqueues(items: seq<AudioData>) returns (count: nat, drained: seq<AudioData>, rest: InputQueue)
    ensures count == |items| && drained == items
    ensures Size(rest) == 0
  {
    var q := New();
    for i := 0 to |items|
      invariant q.items == items[..i]
    {
      q := Enqueue(q, items[i].guildId, items[i].userId, items[i].data);
      assert items[..i + 1] == items[..i] + [items[i]];
    }
    assert items[..|items|] == items;
    drained, rest := Fifo.Drain(q);
    count := |drained|;
  }
}

=== FILE: pcm.dfy ===
/**
 * Gain on 16-bit little-endian signed PCM, as both speech processors
 * apply it before transcoding: each complete byte pair is decoded as a
 * sample, multiplied by the gain, clamped to the 16-bit range and written
 * back; the output buffer starts zeroed, so a trailing odd byte comes out
 * as 0. The gain is an integer here.
 */
module Pcm {
  import opened Bytes

  const ShortMin: int := -32768
  const ShortMax: int := 32767

  /** The value of a Java `byte` with the bit pattern `b`. */
  function Signed(b: byte): (v: int)
    ensures -128 <= v < 128 && (v - b) % 256 == 0
  {
    if b >= 128 then b - 256 else b
  }

  /** `(short) ((hi << 8) | (lo & 0xFF))`: the little-endian sample in a byte pair. */
  function DecodeSample(lo: byte, hi: byte): (s: int)
    ensures ShortMin <= s <= ShortMax
  {
    Signed(hi) * 256 + lo
  }

  /** `(byte) (sample & 0xFF)` */
  function LowByte(sample: int): byte
  {
    sample % 256
  }

  /** `(byte) ((sample >> 8) & 0xFF)`; the shift is an arithmetic (flooring) shift. */
  function HighByte(sample: int): byte
  {
    (sample / 256) % 256
  }

  /** `Math.max(Short.MIN_VALUE, Math.min(Short.MAX_VALUE, x))` */
  function Clamp(x: int): (r: int)
    ensures ShortMin <= r <= ShortMax
    ensures ShortMin <= x <= ShortMax ==> r == x
    ensures x < ShortMin ==> r == ShortMin
    ensures x > ShortMax ==> r == ShortMax
  {
    if x < ShortMin then ShortMin else if x > ShortMax then ShortMax else x
  }

  /** Writing a 16-bit sample as two bytes and reading it back gives the sample. */
  lemma SampleRoundTrip(sample: int)
    requires ShortMin <= sample <= ShortMax
    ensures DecodeSample(LowByte(sample), HighByte(sample)) == sample
  {
    var q := sample / 256;
    assert -128 <= q < 128;
    assert sample == q * 256 + sample % 256;
  }

  /** Reading a byte pair as a sample and writing it back gives the same pair. */
  lemma PairRoundTrip(lo: byte, hi: byte)
    ensures LowByte(DecodeSample(lo, hi)) == lo && HighByte(DecodeSample(lo, hi)) == hi
  {
    var s := DecodeSample(lo, hi);
    assert s / 256 == Signed(hi);
  }

  /** The output byte at position `k`: bytes of complete pairs carry the scaled, clamped sample; a trailing odd byte is 0. */
  function AmplifiedByte(pcm: Bytes, gain: int, k: nat): byte
    requires k < |pcm|
  {
    var p := k / 2;
    if 2 * p + 1 >= |pcm| then 0
    else
      var sample := Clamp(DecodeSample(pcm[2 * p], pcm[2 * p + 1]) * gain);
      if k % 2 == 0 then LowByte(sample) else HighByte(sample)
  }

  /**
   * The amplified buffer. Every complete pair of the output decodes to the
   * input sample times the gain, clamped to the 16-bit range, and a
   * trailing odd byte is 0.
   */
  function Amplified(pcm: Bytes, gain: int): (r: Bytes)
    ensures |r| == |pcm|
    ensures forall p :: 0 <= p < |pcm| / 2 ==>
      DecodeSample(r[2 * p], r[2 * p + 1]) == Clamp(DecodeSample(pcm[2 * p], pcm[2 * p + 1]) * gain)
    ensures |pcm| % 2 == 1 ==> r[|pcm| - 1] == 0
    ensures forall k :: 0 <= k < |pcm| ==> r[k] == AmplifiedByte(pcm, gain, k)
  {
    var r := seq(|pcm|, k requires 0 <= k < |pcm| => AmplifiedByte(pcm, gain, k));
    AmplifiedSamples(pcm, gain, r);
    r
  }

  /** A buffer holding `AmplifiedByte` at every position decodes pair by pair to the clamped products. */
  lemma AmplifiedSamples(pcm: Bytes, gain: int, r: Bytes)
    requires |r| == |pcm| && forall k :: 0 <= k < |pcm| ==> r[k] == AmplifiedByte(pcm, gain, k)
    ensures forall p :: 0 <= p < |pcm| / 2 ==>
      DecodeSample(r[2 * p], r[2 * p + 1]) == Clamp(DecodeSample(pcm[2 * p], pcm[2 * p + 1]) * gain)
    ensures |pcm| % 2 == 1 ==> r[|pcm| - 1] == 0
  {
    forall p | 0 <= p < |pcm| / 2
      ensures DecodeSample(r[2 * p], r[2 * p + 1]) == Clamp(DecodeSample(pcm[2 * p], pcm[2 * p + 1]) * gain)
    {
      AmplifiedPair(pcm, gain, p);
    }
    if |pcm| % 2 == 1 {
      assert (|pcm| - 1) / 2 * 2 + 1 == |pcm|;
    }
  }

  /** One complete pair of the output decodes to the input sample times the gain, clamped. */
  lemma AmplifiedPair(pcm: Bytes, gain: int, p: nat)
    requires 2 * p + 1 < |pcm|
    ensures DecodeSample(AmplifiedByte(pcm, gain, 2 * p), AmplifiedByte(pcm, gain, 2 * p + 1))
      == Clamp(DecodeSample(pcm[2 * p], pcm[2 * p + 1]) * gain)
  {
    var sample := Clamp(DecodeSample(pcm[2 * p], pcm[2 * p + 1]) * gain);
    assert (2 * p) / 2 == p && (2 * p + 1) / 2 == p;
    assert (2 * p) % 2 == 0 && (2 * p + 1) % 2 == 1;
    assert AmplifiedByte(pcm, gain, 2 * p) == LowByte(sample);
    assert AmplifiedByte(pcm, gain, 2 * p + 1) == HighByte(sample);
    SampleRoundTrip(sample);
  }

  /** With gain 1 a complete pair is written back unchanged. */
  lemma UnitGainPair(pcm: Bytes, p: nat)
    requires 2 * p + 1 < |pcm|
    ensures AmplifiedByte(pcm, 1, 2 * p) == pcm[2 * p]
    ensures AmplifiedByte(pcm, 1, 2 * p + 1) == pcm[2 * p + 1]
  {
    assert (2 * p) / 2 == p && (2 * p + 1) / 2 == p;
    assert (2 * p) % 2 == 0 && (2 * p + 1) % 2 == 1;
    var sample := DecodeSample(pcm[2 * p], pcm[2 * p + 1]);
    assert sample * 1 == sample;
    PairRoundTrip(pcm[2 * p], pcm[2 * p + 1]);
  }

  /**
   * With gain 1, the factor both call sites pass, every complete byte pair
   * is reproduced exactly and a trailing odd byte becomes 0.
   */
  lemma UnitGainIsIdentityOnPairs(pcm: Bytes)
    ensures var r := Amplified(pcm, 1);
      && (forall p :: 0 <= p < |pcm| / 2 ==> r[2 * p] == pcm[2 * p] && r[2 * p + 1] == pcm[2 * p + 1])
      && (|pcm| % 2 == 1 ==> r[|pcm| - 1] == 0)
  {
    forall p | 0 <= p < |pcm| / 2
      ensures Amplified(pcm, 1)[2 * p] == pcm[2 * p] && Amplified(pcm, 1)[2 * p + 1] == pcm[2 * p + 1]
    {
      UnitGainPair(pcm, p);
    }
    if |pcm| % 2 == 1 {
      var p := (|pcm| - 1) / 2;
      assert (|pcm| - 1) / 2 == p && 2 * p + 1 == |pcm|;
    }
  }

  /**
   * The amplification loop: a zeroed buffer of the input's length, then
   * one step per complete byte pair.
   */
  method AmplifyPcmData(pcm: Bytes, gain: int) returns (out: Bytes)
    ensures out == Amplified(pcm, gain)
    ensures |out| == |pcm|
  {
    var amplified := new byte[|pcm|](_ => 0);
    var i := 0;
    while i < |pcm| - 1
      invariant 0 <= i <= |pcm| && i % 2 == 0
      invariant forall k :: 0 <= k < i ==> amplified[k] == AmplifiedByte(pcm, gain, k)
      invariant forall k :: i <= k < |pcm| ==> amplified[k] == 0
      decreases |pcm| - i
    {
      var sample := DecodeSample(pcm[i], pcm[i + 1]);
      sample := Clamp(sample * gain);
      amplified[i] := LowByte(sample);
      amplified[i + 1] := HighByte(sample);
      assert i / 2 == (i + 1) / 2;
      i := i + 2;
    }
    out := amplified[..];
    AmplifiedByBytes(pcm, gain, out);
  }

  /** A buffer holding `AmplifiedByte` at every position is the amplified buffer. */
  lemma AmplifiedByBytes(pcm: Bytes, gain: int, out: Bytes)
    requires |out| == |pcm| && forall k :: 0 <= k < |pcm| ==> out[k] == AmplifiedByte(pcm, gain, k)
    ensures out == Amplified(pcm, gain)
  {
    var r := Amplified(pcm, gain);
    assert forall k :: 0 <= k < |pcm| ==> out[k] == r[k];
  }
}

=== FILE: playback_driver.dfy ===
/**
 * The voice-channel audio handler: it files received user audio into the
 * speaker buffer store and, each time the voice connection asks whether a
 * frame is ready, drives a small "processing" flag machine that takes at
 * most one finished utterance, turns the reply into a track and reports
 * whether the player produced a frame.
 *
 * The reply to an utterance, the outcome of loading the reply track and
 * the player's next frame are inputs; so are the clock readings the
 * boundary check takes.
 */
module PlaybackDriver {
  import opened Wrappers
  import opened Bytes
  import Base64
  import SpeakerBuffers
  import StreamTrack

  /**
   * The handler's state: the store, the processing flag, the identifier
   * of the track the player is playing (if any) and the last frame the
   * player produced.
   */
  datatype Handler = Handler(
    store: SpeakerBuffers.Store,
    processing: bool,
    playingTrack: Option<string>,
    lastFrame: Option<Bytes>)

  /** What the reply step came to: reply bytes (possibly empty), no reply, or an exception. */
  datatype ReplyOutcome = Reply(bytes: Bytes) | NoReply | ProcessFailed

  /** How the player's loader answered a track request. */
  datatype LoadOutcome = TrackLoaded | PlaylistLoaded | NoMatches | LoadFailed

  /** A handler over `store` that is idle, playing nothing and has no frame yet. */
  function New(store: SpeakerBuffers.Store): (h: Handler)
    ensures !h.processing && h.playingTrack.None? && h.lastFrame.None? && h.store == store
  {
    Handler(store, false, None, None)
  }

  /** The handler receives per-user audio, never the mixed stream. */
  function CanReceiveCombined(h: Handler): (r: bool)
    ensures !r
  {
    false
  }

  function CanReceiveUser(h: Handler): (r: bool)
    ensures r
  {
    true
  }

  /** Frames handed to the voice connection are already Opus-encoded. */
  function IsOpus(h: Handler): (r: bool)
    ensures r
  {
    true
  }

  /** Received audio from one user only joins that user's buffer; nothing else moves. */
  function HandleUserAudio(h: Handler, userId: string, data: Bytes, now: int): (r: Handler)
    ensures userId in r.store.accumulated && r.store.accumulated[userId] ==
      (if userId in h.store.accumulated then h.store.accumulated[userId] else []) + [data]
    ensures userId in h.store.accumulated ==> r.store.startTimes == h.store.startTimes
    ensures userId !in h.store.accumulated ==> r.store.startTimes == h.store.startTimes[userId := now]
    ensures forall other :: other != userId ==>
      (other in r.store.accumulated <==> other in h.store.accumulated)
      && (other in h.store.accumulated ==> r.store.accumulated[other] == h.store.accumulated[other])
    ensures r.store.queue == h.store.queue && r.store.lastAddTime == now
    ensures r.processing == h.processing && r.playingTrack == h.playingTrack && r.lastFrame == h.lastFrame
  {
    h.(store := SpeakerBuffers.AddAudioData(h.store, userId, data, now))
  }

  /**
   * Loads the reply track. Any playing track is stopped first; a loaded
   * track starts playing; a playlist is ignored; no match or a load
   * failure clears the processing flag.
   */
  function LoadAndPlayTrack(h: Handler, trackString: string, load: LoadOutcome): (r: Handler)
    ensures r.store == h.store && r.lastFrame == h.lastFrame
    ensures r.playingTrack == (if load == TrackLoaded then Some(trackString) else None)
    ensures r.processing == (h.processing && load != NoMatches && load != LoadFailed)
  {
    var stopped := h.(playingTrack := None);
    match load
    case TrackLoaded => stopped.(playingTrack := Some(trackString))
    case PlaylistLoaded => stopped
    case NoMatches => stopped.(processing := false)
    case LoadFailed => stopped.(processing := false)
  }

  /**
   * The first half of a poll, run only while idle: the boundary check,
   * then at most one utterance taken and answered. A non-empty reply
   * becomes a Base64 track; an empty or missing reply, or an exception,
   * clears the flag again.
   */
  function TakeAndAnswer(h: Handler, now: int, order: seq<SpeakerBuffers.SpeakerId>, stamps: seq<int>,
                         reply: ReplyOutcome, load: LoadOutcome): (r: Handler)
    requires |stamps| == |order|
    ensures h.processing ==> r == h
    ensures r.lastFrame == h.lastFrame
  {
    if h.processing then h
    else
      var checked := SpeakerBuffers.CheckAndMoveData(h.store, now, order, stamps);
      var (taken, rest) := SpeakerBuffers.TakeAudioData(checked);
      var h1 := h.(store := rest);
      match taken
      case None => h1
      case Some(_) =>
        var busy := h1.(processing := true);
        match reply
        case Reply(bytes) =>
          if |bytes| > 0 then LoadAndPlayTrack(busy, Base64.Encode(bytes), load)
          else busy.(processing := false)
        case NoReply => busy.(processing := false)
        case ProcessFailed => busy.(processing := false)
  }

  /** The utterance queue after a poll's boundary check. */
  function Checked(h: Handler, now: int, order: seq<SpeakerBuffers.SpeakerId>, stamps: seq<int>): seq<SpeakerBuffers.Utterance>
    requires |stamps| == |order|
  {
    SpeakerBuffers.CheckAndMoveData(h.store, now, order, stamps).queue.items
  }

  /**
   * One poll: the idle-only take-and-answer step, then the player's next
   * frame. A missing frame while processing means playback finished. The
   * answer is whether a frame was produced.
   */
  function CanProvide(h: Handler, now: int, order: seq<SpeakerBuffers.SpeakerId>, stamps: seq<int>,
                      reply: ReplyOutcome, load: LoadOutcome, frame: Option<Bytes>): (r: (bool, Handler))
    requires |stamps| == |order|
    ensures r.0 <==> frame.Some?
    ensures r.1.lastFrame == frame
    ensures r.1.processing ==> r.0
    ensures h.processing ==> r.1.store == h.store && r.1.playingTrack == h.playingTrack
    ensures !h.processing ==>
      var queued := Checked(h, now, order, stamps);
      && (|queued| == 0 ==> r.1.store.queue.items == [] && !r.1.processing && r.1.playingTrack == h.playingTrack)
      && (|queued| > 0 ==> r.1.store.queue.items == queued[1..])
    ensures !h.processing && (reply.NoReply? || reply.ProcessFailed? || (reply.Reply? && |reply.bytes| == 0)) ==>
      !r.1.processing && r.1.playingTrack == h.playingTrack
    ensures !h.processing && reply.Reply? && |reply.bytes| > 0 && (load == NoMatches || load == LoadFailed) ==>
      !r.1.processing && (|Checked(h, now, order, stamps)| > 0 ==> r.1.playingTrack.None?)
    ensures h.processing ==> (r.1.processing <==> frame.Some?)
    ensures (!h.processing && |Checked(h, now, order, stamps)| > 0 && reply.Reply? && |reply.bytes| > 0
      && (load == TrackLoaded || load == PlaylistLoaded)) ==>
      && (r.1.processing <==> frame.Some?)
      && r.1.playingTrack == (if load == TrackLoaded then Some(Base64.Encode(reply.bytes)) else None)
  {
    var h1 := TakeAndAnswer(h, now, order, stamps, reply, load);
    var h2 := h1.(lastFrame := frame);
    var h3 := if frame.None? && h2.processing then h2.(processing := false) else h2;
    (frame.Some?, h3)
  }

  /** The frame data handed to the voice connection: the last frame's bytes (absent if none was produced). */
  function Provide20MsAudio(h: Handler): (r: Option<Bytes>)
    ensures r.Some? <==> h.lastFrame.Some?
    ensures r.Some? ==> r.value == h.lastFrame.value
  {
    h.lastFrame
  }

  // ----- properties of a poll -----

  /**
   * The happy path: an idle handler with a finished utterance whose reply
   * is non-empty and whose track loads is busy afterwards as long as the
   * player yields a frame, and the track it plays decodes back to exactly
   * the reply bytes.
   */
  lemma ReplyTrackPlaysReplyBytes(h: Handler, now: int, order: seq<SpeakerBuffers.SpeakerId>, stamps: seq<int>,
                                  bytes: Bytes, frame: Bytes,
                                  factory: StreamTrack.ContainerFactory, manager: StreamTrack.SourceManager)
    requires |stamps| == |order| && !h.processing && |bytes| > 0
    requires |Checked(h, now, order, stamps)| > 0
    ensures var (provided, r) := CanProvide(h, now, order, stamps, Reply(bytes), TrackLoaded, Some(frame));
      && provided && r.processing && r.playingTrack.Some?
      && StreamTrack.NewTrack(StreamTrack.TrackInfo(r.playingTrack.value), factory, manager).Some?
      && StreamTrack.NewTrack(StreamTrack.TrackInfo(r.playingTrack.value), factory, manager).value.bytes == bytes
  {
    StreamTrack.EncodedAudioRoundTrip(bytes, factory, manager);
  }
}

=== FILE: playback_queue.dfy ===
/**
 * The playback queue: Base64 text of synthesised audio waiting to be
 * played, in the order the speech jobs finished, plus an independent
 * "is playing" flag.
 */
module PlaybackQueue {
  import opened Wrappers
  import Fifo

  datatype PlaybackQueue = PlaybackQueue(audio: Fifo.Queue<string>, playing: bool)

  /** An empty queue that is not playing. */
  function New(): (q: PlaybackQueue)
    ensures !HasNext(q) && Size(q) == 0 && !IsPlaying(q) && Dequeue(q).0 == None
  {
    PlaybackQueue(Fifo.Empty(), false)
  }

  function Enqueue(q: PlaybackQueue, base64Audio: string): (r: PlaybackQueue)
    ensures r.audio.items == q.audio.items + [base64Audio]
    ensures Size(r) == Size(q) + 1
    ensures IsPlaying(r) == IsPlaying(q)
  {
    q.(audio := Fifo.Enqueue(q.audio, base64Audio))
  }

  function Dequeue(q: PlaybackQueue): (r: (Option<string>, PlaybackQueue))
    ensures Size(q) == 0 ==> r.0 == None && r.1 == q
    ensures Size(q) > 0 ==> r.0 == Some(q.audio.items[0]) && r.1.audio.items == q.audio.items[1..]
    ensures IsPlaying(r.1) == IsPlaying(q)
  {
    var (x, rest) := Fifo.Dequeue(q.audio);
    (x, q.(audio := rest))
  }

  function HasNext(q: PlaybackQueue): (r: bool)
    ensures r <==> Size(q) > 0
  {
    Fifo.HasNext(q.audio)
  }

  function Size(q: PlaybackQueue): nat
  {
    Fifo.Size(q.audio)
  }

  function IsPlaying(q: PlaybackQueue): bool
  {
    q.playing
  }

  /** Sets the flag; the queued items are not touched. */
  function SetPlaying(q: PlaybackQueue, playing: bool): (r: PlaybackQueue)
    ensures IsPlaying(r) == playing
    ensures r.audio == q.audio
  {
    q.(playing := playing)
  }

  /** One call on the queue, as a caller would issue it. */
  datatype Op = Offer(item: string) | Poll | SetFlag(playing: bool)

  /** The queue after one call. */
  function Step(q: PlaybackQueue, op: Op): PlaybackQueue
  {
    match op
    case Offer(x) => Enqueue(q, x)
    case Poll => Dequeue(q).1
    case SetFlag(b) => SetPlaying(q, b)
  }

  /** What one call hands back to its caller: the polled item, if any. */
  function StepPolled(q: PlaybackQueue, op: Op): seq<string>
  {
    if op.Poll? && HasNext(q) then [q.audio.items[0]] else []
  }

  /** The queue after running the calls in order. */
  function Run(q: PlaybackQueue, ops: seq<Op>): PlaybackQueue
    decreases |ops|
  {
    if |ops| == 0 then q else Run(Step(q, ops[0]), ops[1..])
  }

  /** The items the polls of a run actually returned, in order. */
  function Polled(q: PlaybackQueue, ops: seq<Op>): seq<string>
    decreases |ops|
  {
    if |ops| == 0 then [] else StepPolled(q, ops[0]) + Polled(Step(q, ops[0]), ops[1..])
  }

  function Offered(ops: seq<Op>): seq<string>
    decreases |ops|
  {
    if |ops| == 0 then [] else (if ops[0].Offer? then [ops[0].item] else []) + Offered(ops[1..])
  }

  /** The flag the run leaves: the last `setPlaying`, or the initial flag. */
  function LastFlag(initial: bool, ops: seq<Op>): bool
    decreases |ops|
  {
    if |ops| == 0 then initial else LastFlag(if ops[0].SetFlag? then ops[0].playing else initial, ops[1..])
  }

  /** One call conserves items: what it returns plus what stays queued is what was queued plus what it offered. */
  lemma StepConserves(q: PlaybackQueue, op: Op)
    ensures StepPolled(q, op) + Step(q, op).audio.items
      == q.audio.items + (if op.Offer? then [op.item] else [])
  {
    if op.Poll? && HasNext(q) {
      assert q.audio.items == [q.audio.items[0]] + q.audio.items[1..];
    }
  }

  /**
   * Conservation and order over any run: what was queued plus what was
   * offered is exactly what was polled followed by what is still queued.
   */
  lemma {:induction false} RunConservesItems(q: PlaybackQueue, ops: seq<Op>)
    ensures Polled(q, ops) + Run(q, ops).audio.items == q.audio.items + Offered(ops)
    decreases |ops|
  {
    if |ops| > 0 {
      var q' := Step(q, ops[0]);
      var out := StepPolled(q, ops[0]);
      var inn := if ops[0].Offer? then [ops[0].item] else [];
      var polled, kept, offered := Polled(q', ops[1..]), Run(q', ops[1..]).audio.items, Offered(ops[1..]);
      RunConservesItems(q', ops[1..]);
      StepConserves(q, ops[0]);
      assert Polled(q, ops) == out + polled;
      assert Run(q, ops).audio.items == kept;
      assert Offered(ops) == inn + offered;
      Regroup(out, polled, kept, q'.audio.items, q.audio.items, inn, offered);
    }
  }

  /** The bookkeeping of one induction step: conservation over the step and over the rest compose. */
  lemma Regroup(out: seq<string>, polled: seq<string>, kept: seq<string>,
                middle: seq<string>, initial: seq<string>, inn: seq<string>, offered: seq<string>)
    requires polled + kept == middle + offered
    requires out + middle == initial + inn
    ensures (out + polled) + kept == initial + (inn + offered)
  {
    calc {
      (out + polled) + kept;
      out + (polled + kept);
      out + (middle + offered);
      (out + middle) + offered;
      (initial + inn) + offered;
      initial + (inn + offered);
    }
  }

  /** Queue calls never touch the flag: after a run it is the one set last, or the initial one. */
  lemma {:induction false} RunFlag(q: PlaybackQueue, ops: seq<Op>)
    ensures IsPlaying(Run(q, ops)) == LastFlag(IsPlaying(q), ops)
    decreases |ops|
  {
    if |ops| > 0 {
      RunFlag(Step(q, ops[0]), ops[1..]);
    }
  }

  /** The size after any run is the initial size plus the offers minus the successful polls. */
  lemma RunSize(q: PlaybackQueue, ops: seq<Op>)
    ensures Size(Run(q, ops)) == Size(q) + |Offered(ops)| - |Polled(q, ops)|
  {
    RunConservesItems(q, ops);
  }

  /** `n` offers followed by a full drain yield exactly the `n` items, oldest first. */
  method DrainAfterEnqueues(items: seq<string>) returns (drained: seq<string>, rest: PlaybackQueue)
    ensures drained == items && |drained| == |items|
    ensures Size(rest) == 0 && !IsPlaying(rest)
  {
    rest := New();
    for i := 0 to |items|
      invariant rest.audio.items == items[..i] && !IsPlaying(rest)
    {
      rest := Enqueue(rest, items[i]);
      assert items[..i + 1] == items[..i] + [items[i]];
    }
    assert items[..|items|] == items;
    drained := [];
    while HasNext(rest)
      invariant drained + rest.audio.items == items && !IsPlaying(rest)
      decreases Size(rest)
    {
      var (x, remaining) := Dequeue(rest);
      drained := drained + [x.value];
      rest := remaining;
    }
  }
}

=== FILE: seekable_stream.dfy ===
/**
 * The in-memory seekable stream a synthesised track is played from: a
 * buffered reader over a fixed byte array with its own position counter.
 * The stream is represented by the bytes not yet read, the array length
 * it was opened with, and the position counter the player sees.
 */
module SeekableStream {
  import opened Wrappers
  import opened Bytes

  datatype Stream = Stream(unread: Bytes, contentLength: nat, position: int)

  /** A stream over `bytes`: nothing read yet, position 0, content length the array's length. */
  function Open(bytes: Bytes): (s: Stream)
    ensures s.position == 0 && s.contentLength == |bytes| && Available(s) == |bytes|
    ensures Consistent(s, bytes)
  {
    Stream(bytes, |bytes|, 0)
  }

  /** The stream stands at `position` in `bytes`: everything before has been consumed, everything after is unread. */
  predicate Consistent(s: Stream, bytes: Bytes)
  {
    s.contentLength == |bytes| && 0 <= s.position <= |bytes| && s.unread == bytes[s.position..]
  }

  /** How many bytes can be read without blocking: all the unread ones. */
  function Available(s: Stream): nat
  {
    |s.unread|
  }

  /** Single-byte read: the next byte (0..255) and a position one further on, or -1 at the end with nothing changed. */
  function Read(s: Stream): (r: (int, Stream))
    ensures |s.unread| == 0 ==> r == (-1, s)
    ensures |s.unread| > 0 ==>
      && 0 <= r.0 < 256 && r.0 == s.unread[0]
      && r.1.position == s.position + 1
      && Available(r.1) == Available(s) - 1
      && r.1.contentLength == s.contentLength
  {
    if |s.unread| == 0 then (-1, s)
    else (s.unread[0] as int, s.(unread := s.unread[1..], position := s.position + 1))
  }

  /** Skip: a request of `n` bytes skips between 0 and the unread count, and the position moves by the count skipped. */
  function Skip(s: Stream, n: int): (r: (int, Stream))
    ensures 0 <= r.0 <= Available(s)
    ensures n <= 0 ==> r.0 == 0
    ensures n > 0 ==> r.0 == if n < Available(s) then n else Available(s)
    ensures r.1.position == s.position + r.0
    ensures r.1.unread == s.unread[r.0..] && r.1.contentLength == s.contentLength
  {
    var k := if n <= 0 then 0 else if n < |s.unread| then n else |s.unread|;
    (k, s.(unread := s.unread[k..], position := s.position + k))
  }

  /** The error a bulk read reports for an offset or length outside the destination. */
  datatype StreamError = IndexOutOfBounds | ResetNotSupported

  /**
   * The underlying bulk read into `b[off..off + len]`: the count read and
   * the updated destination, -1 at the end of the stream, 0 for a zero
   * length, and an error for bounds outside the destination.
   */
  function BufferedRead(unread: Bytes, b: Bytes, off: int, len: int): (r: Result<(int, Bytes), StreamError>)
    ensures r.Failure? <==> off < 0 || len < 0 || off + len > |b|
    ensures r.Success? ==> |r.value.1| == |b|
    ensures r.Success? && len == 0 ==> r.value == (0, b)
    ensures r.Success? && len > 0 && |unread| == 0 ==> r.value == (-1, b)
    ensures r.Success? && len > 0 && |unread| > 0 ==>
      var n := r.value.0;
      && 0 < n <= len && n <= |unread| && (n == len || n == |unread|)
      && r.value.1[off..off + n] == unread[..n]
      && r.value.1[..off] == b[..off] && r.value.1[off + n..] == b[off + n..]
  {
    if off < 0 || len < 0 || off + len > |b| then Failure(IndexOutOfBounds)
    else if len == 0 then Success((0, b))
    else if |unread| == 0 then Success((-1, b))
    else
      var n := if len < |unread| then len else |unread|;
      var b' := b[..off] + unread[..n] + b[off + n..];
      assert b'[off..off + n] == unread[..n];
      Success((n, b'))
  }

  /**
   * Bulk read as the stream implements it: the underlying result is added
   * to the position unconditionally, so the -1 of an exhausted stream moves
   * the position back by one.
   */
  function ReadInto(s: Stream, b: Bytes, off: int, len: int): (r: Result<(int, Bytes, Stream), StreamError>)
    ensures r.Failure? <==> off < 0 || len < 0 || off + len > |b|
    ensures r.Success? ==>
      && r.value.2.position == s.position + r.value.0
      && r.value.2.contentLength == s.contentLength
      && BufferedRead(s.unread, b, off, len) == Success((r.value.0, r.value.1))
      && r.value.2.unread == (if r.value.0 > 0 then s.unread[r.value.0..] else s.unread)
  {
    match BufferedRead(s.unread, b, off, len)
    case Failure(e) => Failure(e)
    case Success((n, b')) =>
      var consumed := if n > 0 then n else 0;
      Success((n, b', s.(unread := s.unread[consumed..], position := s.position + n)))
  }

  /** Bulk read with the position advanced only by the bytes actually read. */
  function ReadIntoFixed(s: Stream, b: Bytes, off: int, len: int): (r: Result<(int, Bytes, Stream), StreamError>)
    ensures r.Failure? <==> off < 0 || len < 0 || off + len > |b|
    ensures r.Success? ==>
      && r.value.2.position == s.position + (if r.value.0 > 0 then r.value.0 else 0)
      && r.value.2.contentLength == s.contentLength
      && BufferedRead(s.unread, b, off, len) == Success((r.value.0, r.value.1))
  {
    match BufferedRead(s.unread, b, off, len)
    case Failure(e) => Failure(e)
    case Success((n, b')) =>
      var consumed := if n > 0 then n else 0;
      Success((n, b', s.(unread := s.unread[consumed..], position := s.position + consumed)))
  }

  /** Mark and reset are not supported: a reset always fails. */
  function Reset(s: Stream): (r: Result<Stream, StreamError>)
    ensures r.Failure? && r.error == ResetNotSupported
  {
    Failure(ResetNotSupported)
  }

  /** The stream never offers mark/reset. */
  function MarkSupported(s: Stream): (r: bool)
    ensures !r
  {
    false
  }

  /** The stream cannot seek by itself; the player must read or skip forward. */
  function CanSeekHard(s: Stream): (r: bool)
    ensures !r
  {
    false
  }

  /** A hard seek is accepted and does nothing. */
  function SeekHard(s: Stream, position: int): (r: Stream)
    ensures r == s
  {
    s
  }

  /** The stream offers no track metadata. */
  function TrackInfoProviders(s: Stream): (r: seq<string>)
    ensures |r| == 0
  {
    []
  }

  /** Closing the in-memory array releases nothing and changes nothing observable. */
  function Close(s: Stream): (r: Stream)
    ensures r == s
  {
    s
  }

  // ----- runs of reads and skips -----

  /** The operations a player issues against the stream. */
  datatype Op = ReadByte | SkipBytes(n: int) | ReadChunk(b: Bytes, off: int, len: int)

  /** One operation, as written; a bulk read that fails leaves the stream unchanged. */
  function Step(s: Stream, op: Op): Stream
  {
    match op
    case ReadByte => Read(s).1
    case SkipBytes(n) => Skip(s, n).1
    case ReadChunk(b, off, len) =>
      match ReadInto(s, b, off, len)
      case Failure(_) => s
      case Success((_, _, s')) => s'
  }

  /** One operation, with the corrected bulk read. */
  function StepFixed(s: Stream, op: Op): Stream
  {
    match op
    case ReadByte => Read(s).1
    case SkipBytes(n) => Skip(s, n).1
    case ReadChunk(b, off, len) =>
      match ReadIntoFixed(s, b, off, len)
      case Failure(_) => s
      case Success((_, _, s')) => s'
  }

  function Run(s: Stream, ops: seq<Op>): Stream
    decreases |ops|
  {
    if |ops| == 0 then s else Run(Step(s, ops[0]), ops[1..])
  }

  function RunFixed(s: Stream, ops: seq<Op>): Stream
    decreases |ops|
  {
    if |ops| == 0 then s else RunFixed(StepFixed(s, ops[0]), ops[1..])
  }

  /** A single-byte read keeps the stream in step with its array and returns the byte at the position. */
  lemma ReadKeepsConsistent(s: Stream, bytes: Bytes)
    requires Consistent(s, bytes)
    ensures Consistent(Read(s).1, bytes)
    ensures s.position < |bytes| ==> Read(s).0 == bytes[s.position]
  {
    if |s.unread| > 0 {
      assert bytes[s.position + 1..] == bytes[s.position..][1..];
    }
  }

  /** A skip keeps the stream in step with its array. */
  lemma SkipKeepsConsistent(s: Stream, bytes: Bytes, n: int)
    requires Consistent(s, bytes)
    ensures Consistent(Skip(s, n).1, bytes)
  {
    var k := Skip(s, n).0;
    assert bytes[s.position + k..] == bytes[s.position..][k..];
  }

  /** The corrected bulk read keeps the stream in step with its array and copies the bytes at the position. */
  lemma ReadIntoFixedKeepsConsistent(s: Stream, bytes: Bytes, b: Bytes, off: int, len: int)
    requires Consistent(s, bytes)
    ensures match ReadIntoFixed(s, b, off, len)
      case Failure(_) => true
      case Success((n, b', s')) =>
        && Consistent(s', bytes)
        && (n > 0 ==> s.position + n <= |bytes| && b'[off..off + n] == bytes[s.position..s.position + n])
  {
    match ReadIntoFixed(s, b, off, len)
    case Failure(_) =>
    case Success((n, b', s')) =>
      if n > 0 {
        assert bytes[s.position + n..] == bytes[s.position..][n..];
        assert bytes[s.position..s.position + n] == bytes[s.position..][..n];
      }
  }

  /**
   * With single-byte reads and skips only, the stream stays in step with
   * its array; in particular position plus available equals the array's
   * length after any such run from a fresh stream.
   */
  lemma {:induction false} ReadSkipRunKeepsConsistent(s: Stream, bytes: Bytes, ops: seq<Op>)
    requires Consistent(s, bytes)
    requires forall k :: 0 <= k < |ops| ==> !ops[k].ReadChunk?
    ensures Consistent(Run(s, ops), bytes)
    ensures Run(s, ops).position + Available(Run(s, ops)) == |bytes|
    decreases |ops|
  {
    if |ops| > 0 {
      match ops[0] {
        case ReadByte => ReadKeepsConsistent(s, bytes);
        case SkipBytes(n) => SkipKeepsConsistent(s, bytes, n);
      }
      ReadSkipRunKeepsConsistent(Step(s, ops[0]), bytes, ops[1..]);
    }
  }

  /** With the corrected bulk read, every run of operations keeps the stream in step with its array. */
  lemma {:induction false} FixedRunKeepsConsistent(s: Stream, bytes: Bytes, ops: seq<Op>)
    requires Consistent(s, bytes)
    ensures Consistent(RunFixed(s, ops), bytes)
    ensures RunFixed(s, ops).position + Available(RunFixed(s, ops)) == |bytes|
    decreases |ops|
  {
    if |ops| > 0 {
      match ops[0] {
        case ReadByte => ReadKeepsConsistent(s, bytes);
        case SkipBytes(n) => SkipKeepsConsistent(s, bytes, n);
        case ReadChunk(b, off, len) => ReadIntoFixedKeepsConsistent(s, bytes, b, off, len);
      }
      FixedRunKeepsConsistent(StepFixed(s, ops[0]), bytes, ops[1..]);
    }
  }

  /**
   * The bulk read as written: on an exhausted stream it returns -1 and the
   * position drops below the number of bytes consumed, so position plus
   * available no longer equals the array length.
   */
  lemma ReadIntoAtEndMovesPositionBack(bytes: Bytes)
    ensures var s := Run(Open(bytes), [SkipBytes(|bytes|)]);
      var r := ReadInto(s, [0], 0, 1);
      && r == Success((-1, [0], s.(position := |bytes| - 1)))
      && r.value.2.position + Available(r.value.2) == |bytes| - 1
  {
    var ops := [SkipBytes(|bytes|)];
    assert Run(Open(bytes), ops) == Run(Step(Open(bytes), ops[0]), ops[1..]);
  }

  /** The corrected bulk read leaves an exhausted stream exactly as it was. */
  lemma ReadIntoFixedAtEndKeepsPosition(bytes: Bytes)
    ensures var s := RunFixed(Open(bytes), [SkipBytes(|bytes|)]);
      ReadIntoFixed(s, [0], 0, 1) == Success((-1, [0], s)) && s.position == |bytes|
  {
    var ops := [SkipBytes(|bytes|)];
    assert RunFixed(Open(bytes), ops) == RunFixed(StepFixed(Open(bytes), ops[0]), ops[1..]);
  }
}

=== FILE: sessions.dfy ===
/**
 * The conversation session registry: one remote session per guild, a
 * text buffer per guild that collects streamed reply fragments, and a
 * pending-reply slot per guild that a send waits on.
 *
 * The remote session is abstract. What it delivers while a send waits is
 * an explicit sequence of (guild, message) events, each handled as the
 * receive callback handles it; a send whose slot is still pending after
 * those events has timed out.
 */
module Sessions {
  import opened Wrappers
  import opened Bytes

  type GuildId = string

  /**
   * One session object. `id` is its identity: two objects created for the
   * same guild at different times are different sessions.
   */
  datatype GeminiSession = GeminiSession(guildId: GuildId, id: nat, active: bool)

  /**
   * How opening a session went: connected and receiving; the connection
   * itself failed; or the connection succeeded and the session was
   * registered, but starting its receive loop threw.
   */
  datatype ConnectOutcome = Connected | ConnectFailed | ReceiveStartFailed

  /** The state of a pending-reply slot. */
  datatype Future = Pending | Completed(value: string)

  /** One part of a model turn; only parts carrying text matter here. */
  datatype Part = Part(text: Option<string>)

  /** The server content of a message: the turn-complete marker, if sent, and the parts of the model turn. */
  datatype ServerContent = ServerContent(turnComplete: Option<bool>, parts: seq<Part>)

  datatype LiveServerMessage = LiveServerMessage(serverContent: Option<ServerContent>)

  /** A message delivered by the receive loop of a guild's session. */
  datatype Event = Event(guildId: GuildId, message: LiveServerMessage)

  /** The registry; `created` counts the session objects made so far and is the identity of the next one. */
  datatype Manager = Manager(
    sessions: map<GuildId, GeminiSession>,
    responseBuffers: map<GuildId, string>,
    responseFutures: map<GuildId, Future>,
    created: nat)

  function New(): (m: Manager)
    ensures IdsFresh(m)
  {
    Manager(map[], map[], map[], 0)
  }

  /** Every registered session is filed under its own guild and is older than the next identity. */
  predicate IdsFresh(m: Manager)
  {
    forall g :: g in m.sessions ==> m.sessions[g].guildId == g && m.sessions[g].id < m.created
  }

  /** `s` is the very session object registered for its guild. */
  predicate IsRegistered(m: Manager, s: GeminiSession)
  {
    s.guildId in m.sessions && m.sessions[s.guildId].id == s.id
  }

  // ----- String.trim -----

  /** The characters `String.trim` strips: code points up to and including the space. */
  predicate IsTrimmable(c: char)
  {
    c <= ' '
  }

  /** The index of the first character at or after `i` that is not trimmable, or `|s|`. */
  function LeadingEnd(s: string, i: nat): (n: nat)
    requires i <= |s|
    ensures i <= n <= |s|
    ensures forall k :: i <= k < n ==> IsTrimmable(s[k])
    ensures n < |s| ==> !IsTrimmable(s[n])
    decreases |s| - i
  {
    if i < |s| && IsTrimmable(s[i]) then LeadingEnd(s, i + 1) else i
  }

  /** The index just past the last character before `j` that is not trimmable, or 0. */
  function TrailingStart(s: string, j: nat): (n: nat)
    requires j <= |s|
    ensures n <= j
    ensures forall k :: n <= k < j ==> IsTrimmable(s[k])
    ensures n > 0 ==> !IsTrimmable(s[n - 1])
  {
    if j > 0 && IsTrimmable(s[j - 1]) then TrailingStart(s, j - 1) else j
  }

  /** Drops leading trimmable characters. */
  function TrimLeft(s: string): (r: string)
    ensures |r| <= |s| && r == s[|s| - |r|..]
    ensures forall k :: 0 <= k < |s| - |r| ==> IsTrimmable(s[k])
    ensures |r| > 0 ==> !IsTrimmable(r[0])
  {
    s[LeadingEnd(s, 0)..]
  }

  /** Drops trailing trimmable characters. */
  function TrimRight(s: string): (r: string)
    ensures |r| <= |s| && r == s[..|r|]
    ensures forall k :: |r| <= k < |s| ==> IsTrimmable(s[k])
    ensures |r| > 0 ==> !IsTrimmable(r[|r| - 1])
  {
    s[..TrailingStart(s, |s|)]
  }

  /**
   * `String.trim`: the slice of `s` between its leading and its trailing
   * run of trimmable characters; empty if `s` has nothing else.
   */
  function Trim(s: string): (r: string)
    ensures |r| <= |TrimLeft(s)| <= |s|
    ensures var i := |s| - |TrimLeft(s)|;
      && r == s[i..i + |r|]
      && (forall k :: 0 <= k < i ==> IsTrimmable(s[k]))
      && (forall k :: i + |r| <= k < |s| ==> IsTrimmable(s[k]))
    ensures |r| > 0 ==> !IsTrimmable(r[0]) && !IsTrimmable(r[|r| - 1])
  {
    var l := TrimLeft(s);
    var r := TrimRight(l);
    TrimSlice(s, l, r);
    r
  }

  /**
   * A prefix `r` of a suffix `l` of `s` is a slice of `s`, and whatever
   * follows `r` in `l` is what follows that slice in `s`.
   */
  lemma TrimSlice(s: string, l: string, r: string)
    requires |l| <= |s| && l == s[|s| - |l|..]
    requires |r| <= |l| && r == l[..|r|]
    requires forall k :: |r| <= k < |l| ==> IsTrimmable(l[k])
    ensures var i := |s| - |l|;
      && r == s[i..i + |r|]
      && (forall k :: i + |r| <= k < |s| ==> IsTrimmable(s[k]))
  {
    var i := |s| - |l|;
    forall k | i + |r| <= k < |s|
      ensures IsTrimmable(s[k])
    {
      assert s[k] == l[k - i];
    }
  }

  /** Trimming twice is trimming once. */
  lemma TrimIdempotent(s: string)
    ensures Trim(Trim(s)) == Trim(s)
  {
    var r := Trim(s);
    if |r| > 0 {
      assert LeadingEnd(r, 0) == 0;
      assert TrimLeft(r) == r;
      assert TrailingStart(r, |r|) == |r|;
      assert TrimRight(r) == r;
    }
  }

  // ----- session lifecycle -----

  /**
   * Opens a session for `guildId`. An existing session makes this a no-op
   * that reports success. Otherwise `connect` says how the attempt went. A
   * failed connection changes nothing and gives false. Once connected, a
   * new active session object and an empty response buffer are
   * registered; the result is true, or false if starting the receive loop
   * then threw, in which case the registration stays.
   */
  function CreateSession(m: Manager, guildId: GuildId, connect: ConnectOutcome): (r: (bool, Manager))
    ensures guildId in m.sessions ==> r == (true, m)
    ensures guildId !in m.sessions ==> (r.0 <==> connect == Connected)
    ensures guildId !in m.sessions && connect == ConnectFailed ==> r.1 == m
    ensures guildId !in m.sessions && connect != ConnectFailed ==>
      && r.1.sessions == m.sessions[guildId := GeminiSession(guildId, m.created, true)]
      && r.1.responseBuffers == m.responseBuffers[guildId := ""]
      && r.1.responseFutures == m.responseFutures
      && r.1.created == m.created + 1
    ensures IdsFresh(m) ==> IdsFresh(r.1)
  {
    if guildId in m.sessions then (true, m)
    else if connect == ConnectFailed then (false, m)
    else
      var registered := m.(sessions := m.sessions[guildId := GeminiSession(guildId, m.created, true)],
                           responseBuffers := m.responseBuffers[guildId := ""],
                           created := m.created + 1);
      (connect == Connected, registered)
  }

  /**
   * Removes the guild's session and response buffer; the result says
   * whether there was a session to shut down. Other guilds and the
   * pending-reply slots are untouched.
   */
  function RemoveSession(m: Manager, guildId: GuildId): (r: (bool, Manager))
    ensures r.0 <==> guildId in m.sessions
    ensures guildId !in r.1.sessions && guildId !in r.1.responseBuffers
    ensures forall g :: g != guildId ==>
      (g in r.1.sessions <==> g in m.sessions) && (g in m.sessions ==> r.1.sessions[g] == m.sessions[g])
      && (g in r.1.responseBuffers <==> g in m.responseBuffers)
      && (g in m.responseBuffers ==> r.1.responseBuffers[g] == m.responseBuffers[g])
    ensures r.1.responseFutures == m.responseFutures
    ensures IdsFresh(m) ==> IdsFresh(r.1)
  {
    (guildId in m.sessions,
     m.(sessions := m.sessions - {guildId}, responseBuffers := m.responseBuffers - {guildId}))
  }

  /**
   * The receive loop of session object `s` failed: that object is marked
   * inactive. If it is still the guild's registered session, the registry
   * shows the session inactive but still registered; a session that was
   * removed, or replaced by a newer one, leaves the registry unchanged.
   */
  function ReceiveFailed(m: Manager, s: GeminiSession): (r: Manager)
    ensures r.sessions.Keys == m.sessions.Keys
    ensures IsRegistered(m, s) ==>
      r.sessions[s.guildId] == m.sessions[s.guildId].(active := false)
    ensures forall g :: g in m.sessions && g != s.guildId ==> r.sessions[g] == m.sessions[g]
    ensures !IsRegistered(m, s) ==> r == m
    ensures r.responseBuffers == m.responseBuffers && r.responseFutures == m.responseFutures
  {
    if IsRegistered(m, s) then m.(sessions := m.sessions[s.guildId := m.sessions[s.guildId].(active := false)]) else m
  }

  /**
   * Shuts every session down and clears the session map; the result is the
   * set of guilds whose sessions were closed. Response buffers and slots
   * stay.
   */
  function ShutdownAllSessions(m: Manager): (r: (set<GuildId>, Manager))
    ensures r.0 == m.sessions.Keys
    ensures r.1.sessions == map[]
    ensures r.1.responseBuffers == m.responseBuffers && r.1.responseFutures == m.responseFutures
  {
    (m.sessions.Keys, m.(sessions := map[]))
  }

  /** The guilds among `keys` whose session exists and is active. */
  function ActiveAmong(m: Manager, keys: set<GuildId>): set<GuildId>
  {
    set g | g in keys && g in m.sessions && m.sessions[g].active
  }

  /** The guilds whose session exists and is active. */
  function ActiveGuilds(m: Manager): set<GuildId>
  {
    ActiveAmong(m, m.sessions.Keys)
  }

  /** Whether `guildId` has a session that is still active. */
  function HasActiveSession(m: Manager, guildId: GuildId): (r: bool)
    ensures r <==> guildId in ActiveGuilds(m)
    ensures r ==> guildId in m.sessions
  {
    guildId in m.sessions && m.sessions[guildId].active
  }

  /** The active count never exceeds the number of sessions, and is zero exactly when no guild has an active session. */
  lemma ActiveCountBounds(m: Manager)
    ensures |ActiveGuilds(m)| <= |m.sessions|
    ensures |ActiveGuilds(m)| == 0 <==> forall g :: !HasActiveSession(m, g)
    ensures forall g :: HasActiveSession(m, g) <==> g in ActiveGuilds(m)
  {
    var a := ActiveGuilds(m);
    assert m.sessions.Keys == a + (m.sessions.Keys - a);
    assert |m.sessions.Keys| == |a| + |m.sessions.Keys - a|;
    if |a| > 0 {
      var g :| g in a;
      assert HasActiveSession(m, g);
    }
  }

  /** Counts the registered sessions that are active, one session at a time. */
  method GetActiveSessionCount(m: Manager) returns (count: nat)
    ensures count == |ActiveGuilds(m)|
    ensures count <= |m.sessions|
    ensures count == 0 <==> forall g :: !HasActiveSession(m, g)
  {
    count := 0;
    var todo := m.sessions.Keys;
    ghost var seen: set<GuildId> := {};
    while todo != {}
      invariant seen <= m.sessions.Keys && todo == m.sessions.Keys - seen
      invariant count == |ActiveAmong(m, seen)|
      decreases todo
    {
      var g :| g in todo;
      ActiveAmongStep(m, seen, g);
      if m.sessions[g].active {
        count := count + 1;
      }
      todo := todo - {g};
      seen := seen + {g};
    }
    assert seen == m.sessions.Keys;
    ActiveCountBounds(m);
  }

  /** Looking at one more guild adds one to the active count exactly when its session is active. */
  lemma ActiveAmongStep(m: Manager, seen: set<GuildId>, g: GuildId)
    requires g !in seen
    ensures |ActiveAmong(m, seen + {g})| == |ActiveAmong(m, seen)| + (if HasActiveSession(m, g) then 1 else 0)
  {
    if HasActiveSession(m, g) {
      assert ActiveAmong(m, seen + {g}) == ActiveAmong(m, seen) + {g};
    } else {
      assert ActiveAmong(m, seen + {g}) == ActiveAmong(m, seen);
    }
  }

  // ----- streamed replies -----

  /** The text of the parts that carry text, in order. */
  function TextOf(parts: seq<Part>): string
  {
    if |parts| == 0 then ""
    else (if parts[0].text.Some? then parts[0].text.value else "") + TextOf(parts[1..])
  }

  /** Whether some part carries text (possibly empty text). */
  predicate HasText(parts: seq<Part>)
  {
    exists k :: 0 <= k < |parts| && parts[k].text.Some?
  }

  /** The guild's buffered reply text; a missing buffer reads as empty. */
  function BufferOf(m: Manager, guildId: GuildId): string
  {
    if guildId in m.responseBuffers then m.responseBuffers[guildId] else ""
  }

  predicate IsTurnComplete(content: ServerContent)
  {
    content.turnComplete == Some(true)
  }

  /**
   * The receive callback for one message of `guildId`'s session.
   * Turn complete: a non-empty buffer is trimmed into the guild's slot (if
   * the slot is still pending) and cleared; an empty or missing buffer
   * completes nothing. Otherwise every text part is appended, in order, to
   * the guild's buffer, which is created on the first text part.
   */
  function HandleResponse(m: Manager, guildId: GuildId, message: LiveServerMessage): (r: Manager)
    ensures r.sessions == m.sessions
    ensures r.responseFutures.Keys == m.responseFutures.Keys
    ensures forall g :: g != guildId ==>
      BufferOf(r, g) == BufferOf(m, g)
      && (g in r.responseBuffers <==> g in m.responseBuffers)
      && (g in m.responseFutures ==> r.responseFutures[g] == m.responseFutures[g])
    ensures forall g :: g in m.responseFutures && m.responseFutures[g].Completed? ==> r.responseFutures[g] == m.responseFutures[g]
    ensures message.serverContent.Some? && !IsTurnComplete(message.serverContent.value) ==>
      && BufferOf(r, guildId) == BufferOf(m, guildId) + TextOf(message.serverContent.value.parts)
      && r.responseFutures == m.responseFutures
    ensures message.serverContent.Some? && IsTurnComplete(message.serverContent.value) && |BufferOf(m, guildId)| > 0 ==>
      && BufferOf(r, guildId) == ""
      && (guildId in m.responseFutures && m.responseFutures[guildId].Pending? ==>
            r.responseFutures[guildId] == Completed(Trim(BufferOf(m, guildId))))
    ensures (message.serverContent.None? || (IsTurnComplete(message.serverContent.value) && |BufferOf(m, guildId)| == 0)) ==>
      r == m
  {
    match message.serverContent
    case None => m
    case Some(content) =>
      if IsTurnComplete(content) then
        if guildId in m.responseBuffers && |m.responseBuffers[guildId]| > 0 then
          var reply := Trim(m.responseBuffers[guildId]);
          var futures :=
            if guildId in m.responseFutures && m.responseFutures[guildId].Pending?
            then m.responseFutures[guildId := Completed(reply)]
            else m.responseFutures;
          m.(responseBuffers := m.responseBuffers[guildId := ""], responseFutures := futures)
        else m
      else if HasText(content.parts) then
        m.(responseBuffers := m.responseBuffers[guildId := BufferOf(m, guildId) + TextOf(content.parts)])
      else
        NoTextIsEmpty(content.parts);
        m
  }

  /** Parts without text contribute no text. */
  lemma {:induction false} NoTextIsEmpty(parts: seq<Part>)
    requires !HasText(parts)
    ensures TextOf(parts) == ""
  {
    if |parts| > 0 {
      assert !HasText(parts[1..]) by {
        forall k | 0 <= k < |parts[1..]| ensures parts[1..][k].text.None? {
          assert parts[1..][k] == parts[k + 1];
        }
      }
      NoTextIsEmpty(parts[1..]);
    }
  }

  /** The registry after the receive callbacks for the events, in order. */
  function HandleAll(m: Manager, events: seq<Event>): (r: Manager)
    ensures r.sessions == m.sessions
    ensures r.responseFutures.Keys == m.responseFutures.Keys
    decreases |events|
  {
    if |events| == 0 then m
    else HandleAll(HandleResponse(m, events[0].guildId, events[0].message), events[1..])
  }

  /**
   * Sends an utterance to the guild's session and waits for the reply.
   * No session, or missing or empty audio: `None` and nothing changes.
   * Otherwise a fresh pending slot replaces any slot the guild had, the
   * `events` the sessions deliver while the caller waits are handled, and
   * the reply is the slot's value if some turn completed it, `None` (the
   * timeout) if not. The slot is removed when the call returns.
   */
  function SendAudioData(m: Manager, guildId: GuildId, audio: Option<Bytes>, events: seq<Event>): (r: (Option<string>, Manager))
    ensures guildId !in m.sessions || audio.None? || |audio.value| == 0 ==> r == (None, m)
    ensures r.1.sessions == m.sessions
    ensures guildId in m.sessions && audio.Some? && |audio.value| > 0 ==>
      guildId !in r.1.responseFutures && r.1.responseFutures.Keys == m.responseFutures.Keys - {guildId}
  {
    if guildId !in m.sessions then (None, m)
    else if audio.None? || |audio.value| == 0 then (None, m)
    else
      var waiting := m.(responseFutures := m.responseFutures[guildId := Pending]);
      var after := HandleAll(waiting, events);
      var reply := match after.responseFutures[guildId]
        case Completed(v) => Some(v)
        case Pending => None;
      (reply, after.(responseFutures := after.responseFutures - {guildId}))
  }

  /** A message of `guildId`'s session that carries content but does not complete the turn. */
  predicate IsFragment(e: Event, guildId: GuildId)
  {
    e.guildId == guildId && e.message.serverContent.Some? && !IsTurnComplete(e.message.serverContent.value)
  }

  /** A message of `guildId`'s session that completes the turn. */
  predicate IsTurnEnd(e: Event, guildId: GuildId)
  {
    e.guildId == guildId && e.message.serverContent.Some? && IsTurnComplete(e.message.serverContent.value)
  }

  /** The text of a run of fragments, in delivery order. */
  function FragmentText(events: seq<Event>): string
  {
    if |events| == 0 then ""
    else match events[0].message.serverContent
      case None => FragmentText(events[1..])
      case Some(content) => TextOf(content.parts) + FragmentText(events[1..])
  }

  /** Fragments append their text, in order, to the guild's buffer and complete no slot. */
  lemma {:induction false} FragmentsAccumulate(m: Manager, guildId: GuildId, events: seq<Event>)
    requires forall k :: 0 <= k < |events| ==> IsFragment(events[k], guildId)
    ensures BufferOf(HandleAll(m, events), guildId) == BufferOf(m, guildId) + FragmentText(events)
    ensures HandleAll(m, events).responseFutures == m.responseFutures
    decreases |events|
  {
    if |events| > 0 {
      var text := TextOf(events[0].message.serverContent.value.parts);
      var m' := HandleResponse(m, guildId, events[0].message);
      assert IsFragment(events[0], guildId);
      assert BufferOf(m', guildId) == BufferOf(m, guildId) + text;
      assert forall k :: 0 <= k < |events[1..]| ==> IsFragment(events[1..][k], guildId) by {
        forall k | 0 <= k < |events[1..]| ensures IsFragment(events[1..][k], guildId) {
          assert events[1..][k] == events[k + 1];
        }
      }
      FragmentsAccumulate(m', guildId, events[1..]);
      assert HandleAll(m, events) == HandleAll(m', events[1..]);
      assert FragmentText(events) == text + FragmentText(events[1..]);
      AppendAssoc(BufferOf(m, guildId), text, FragmentText(events[1..]));
    }
  }

  /** Appending text is associative. */
  lemma AppendAssoc(a: string, b: string, c: string)
    ensures (a + b) + c == a + (b + c)
  {
  }

  /** Without a turn-complete message from the guild's session, its pending slot stays pending. */
  lemma {:induction false} PendingWithoutTurnEnd(m: Manager, guildId: GuildId, events: seq<Event>)
    requires guildId in m.responseFutures && m.responseFutures[guildId].Pending?
    requires forall k :: 0 <= k < |events| ==> !IsTurnEnd(events[k], guildId)
    ensures HandleAll(m, events).responseFutures[guildId].Pending?
    decreases |events|
  {
    if |events| > 0 {
      var m' := HandleResponse(m, events[0].guildId, events[0].message);
      PendingWithoutTurnEnd(m', guildId, events[1..]);
    }
  }

  /**
   * Timeout: if the guild's session completes no turn while the caller
   * waits, the send yields `None`, whatever slot the guild had before
   * (the fresh slot replaced it), and the slot is gone afterwards.
   */
  lemma SendTimesOutWithoutTurnEnd(m: Manager, guildId: GuildId, audio: Bytes, events: seq<Event>)
    requires guildId in m.sessions && |audio| > 0
    requires forall k :: 0 <= k < |events| ==> !IsTurnEnd(events[k], guildId)
    ensures var (reply, m') := SendAudioData(m, guildId, Some(audio), events);
      reply == None && guildId !in m'.responseFutures
  {
    var waiting := m.(responseFutures := m.responseFutures[guildId := Pending]);
    PendingWithoutTurnEnd(waiting, guildId, events);
  }

  /**
   * A whole turn: starting from an empty buffer, the session streams text
   * fragments and then completes the turn; if the fragments carried any
   * text, the send returns exactly their concatenation, trimmed, and the
   * buffer is left empty for the next turn.
   */
  lemma SendReturnsTrimmedTurn(m: Manager, guildId: GuildId, audio: Bytes, fragments: seq<Event>, turnEnd: Event)
    requires guildId in m.sessions && |audio| > 0 && BufferOf(m, guildId) == ""
    requires forall k :: 0 <= k < |fragments| ==> IsFragment(fragments[k], guildId)
    requires IsTurnEnd(turnEnd, guildId) && FragmentText(fragments) != ""
    ensures var (reply, m') := SendAudioData(m, guildId, Some(audio), fragments + [turnEnd]);
      && reply == Some(Trim(FragmentText(fragments)))
      && BufferOf(m', guildId) == ""
      && guildId !in m'.responseFutures
  {
    var waiting := m.(responseFutures := m.responseFutures[guildId := Pending]);
    TurnCompletes(waiting, guildId, fragments, turnEnd);
    var after := HandleAll(waiting, fragments + [turnEnd]);
    assert after.responseFutures[guildId] == Completed(Trim(FragmentText(fragments)));
    var m' := after.(responseFutures := after.responseFutures - {guildId});
    assert BufferOf(m', guildId) == BufferOf(after, guildId);
    assert SendAudioData(m, guildId, Some(audio), fragments + [turnEnd]) == (Some(Trim(FragmentText(fragments))), m');
  }

  /** The event-handling half of a whole turn, for a manager whose slot is pending. */
  lemma TurnCompletes(waiting: Manager, guildId: GuildId, fragments: seq<Event>, turnEnd: Event)
    requires guildId in waiting.responseFutures && waiting.responseFutures[guildId].Pending?
    requires BufferOf(waiting, guildId) == ""
    requires forall k :: 0 <= k < |fragments| ==> IsFragment(fragments[k], guildId)
    requires IsTurnEnd(turnEnd, guildId) && FragmentText(fragments) != ""
    ensures HandleAll(waiting, fragments + [turnEnd]).responseFutures[guildId] == Completed(Trim(FragmentText(fragments)))
    ensures BufferOf(HandleAll(waiting, fragments + [turnEnd]), guildId) == ""
  {
    FragmentsAccumulate(waiting, guildId, fragments);
    var mid := HandleAll(waiting, fragments);
    HandleAllSplit(waiting, fragments, [turnEnd]);
    assert BufferOf(mid, guildId) == FragmentText(fragments);
    assert mid.responseFutures[guildId].Pending?;
    var last := HandleResponse(mid, guildId, turnEnd.message);
    assert HandleAll(mid, [turnEnd]) == HandleAll(last, []);
  }

  /** Handling two runs of events one after the other is handling their concatenation. */
  lemma {:induction false} HandleAllSplit(m: Manager, first: seq<Event>, second: seq<Event>)
    ensures HandleAll(m, first + second) == HandleAll(HandleAll(m, first), second)
    decreases |first|
  {
    if |first| > 0 {
      assert (first + second)[1..] == first[1..] + second;
      HandleAllSplit(HandleResponse(m, first[0].guildId, first[0].message), first[1..], second);
    } else {
      assert first + second == second;
    }
  }

  /** A session created for a new guild is active; a removed one is not; after a full shutdown none is. */
  lemma SessionLifecycle(m: Manager, guildId: GuildId)
    ensures guildId !in m.sessions ==> HasActiveSession(CreateSession(m, guildId, Connected).1, guildId)
    ensures !HasActiveSession(RemoveSession(m, guildId).1, guildId)
    ensures forall g :: !HasActiveSession(ShutdownAllSessions(m).1, g)
    ensures |ActiveGuilds(ShutdownAllSessions(m).1)| == 0
  {
    ActiveCountBounds(ShutdownAllSessions(m).1);
  }

  /**
   * A session that is removed and replaced: when the old session's receive
   * loop fails late, the replacement stays registered and active.
   */
  lemma LateFailureSparesReplacement(m: Manager, guildId: GuildId, connect: ConnectOutcome)
    requires IdsFresh(m) && guildId in m.sessions && connect != ConnectFailed
    ensures var previous := m.sessions[guildId];
      var replaced := CreateSession(RemoveSession(m, guildId).1, guildId, connect).1;
      && HasActiveSession(replaced, guildId)
      && !IsRegistered(replaced, previous)
      && ReceiveFailed(replaced, previous) == replaced
  {
    var previous := m.sessions[guildId];
    var removed := RemoveSession(m, guildId).1;
    assert removed.created == m.created;
    var replaced := CreateSession(removed, guildId, connect).1;
    assert replaced.sessions[guildId].id == m.created > previous.id;
  }

  /**
   * A session whose receive loop could not be started is still
   * registered, so the attempt reports false but every later attempt
   * reports true without connecting again.
   */
  lemma FailedStartBlocksRetry(m: Manager, guildId: GuildId, retry: ConnectOutcome)
    requires guildId !in m.sessions
    ensures var (ok, m') := CreateSession(m, guildId, ReceiveStartFailed);
      && !ok && HasActiveSession(m', guildId)
      && CreateSession(m', guildId, retry) == (true, m')
  {
  }

  /** A turn that ends before any text arrived completes nothing, so the send gives no reply. */
  lemma EmptyTurnGivesNoReply(m: Manager, guildId: GuildId, audio: Bytes, turnEnd: Event)
    requires BufferOf(m, guildId) == "" && IsTurnEnd(turnEnd, guildId)
    ensures SendAudioData(m, guildId, Some(audio), [turnEnd]).0 == None
  {
    if guildId in m.sessions && |audio| > 0 {
      var waiting := m.(responseFutures := m.responseFutures[guildId := Pending]);
      assert BufferOf(waiting, guildId) == "";
      assert HandleResponse(waiting, guildId, turnEnd.message) == waiting;
      assert HandleAll(waiting, [turnEnd]) == HandleAll(waiting, []);
    }
  }

  /** A slot that is pending, or completed with text that trimming leaves alone. */
  predicate TrimmedSlot(m: Manager, guildId: GuildId)
  {
    guildId in m.responseFutures
    && (m.responseFutures[guildId].Completed? ==> Trim(m.responseFutures[guildId].value) == m.responseFutures[guildId].value)
  }

  /** Handling messages only ever completes a slot with trimmed text. */
  lemma {:induction false} SlotStaysTrimmed(m: Manager, guildId: GuildId, events: seq<Event>)
    requires TrimmedSlot(m, guildId)
    ensures TrimmedSlot(HandleAll(m, events), guildId)
    decreases |events|
  {
    if |events| > 0 {
      var m' := HandleResponse(m, events[0].guildId, events[0].message);
      TrimIdempotent(BufferOf(m, guildId));
      SlotStaysTrimmed(m', guildId, events[1..]);
    }
  }

  /** Every reply a send returns is already trimmed: no leading or trailing whitespace or control characters. */
  lemma SendReplyIsTrimmed(m: Manager, guildId: GuildId, audio: Option<Bytes>, events: seq<Event>)
    ensures var (reply, _) := SendAudioData(m, guildId, audio, events);
      reply.Some? ==> Trim(reply.value) == reply.value
  {
    if guildId in m.sessions && audio.Some? && |audio.value| > 0 {
      var waiting := m.(responseFutures := m.responseFutures[guildId := Pending]);
      SlotStaysTrimmed(waiting, guildId, events);
    }
  }
}

=== FILE: speaker_buffers.dfy ===
/**
 * The speaker buffer store: per-speaker lists of received audio chunks,
 * the time each speaker's current span started, one store-wide "last add"
 * time, and the FIFO of flushed utterances.
 *
 * Clock readings are explicit parameters. A pass over the speakers reads
 * the clock once up front (`now`) and once more at every flush, so a pass
 * takes one extra reading per visited speaker (`stamps`). The order in
 * which a pass visits the speakers is the unspecified iteration order of
 * a concurrent hash map, so it is a parameter too.
 */
module SpeakerBuffers {
  import opened Wrappers
  import opened Bytes
  import Fifo

  /** Silence, measured from the store-wide last add, after which a speaker is flushed. */
  const DuringConversationMillis: int := 2000

  /** Length of a span, measured from its start, after which a speaker is flushed. */
  const TalkMillis: int := 10000

  type SpeakerId = string

  /** One flushed utterance: the speaker and all of its chunks joined. */
  datatype Utterance = Utterance(id: SpeakerId, data: Bytes)

  datatype Store = Store(
    accumulated: map<SpeakerId, seq<Bytes>>,
    startTimes: map<SpeakerId, int>,
    lastAddTime: int,
    queue: Fifo.Queue<Utterance>)

  /** A freshly built store whose last-add time is the construction time. */
  function New(now: int): (s: Store)
    ensures Valid(s) && s.lastAddTime == now && Fifo.Size(s.queue) == 0
  {
    Store(map[], map[], now, Fifo.Empty())
  }

  /** Every tracked speaker has a start time and at least one chunk. */
  ghost predicate Valid(s: Store)
  {
    && s.accumulated.Keys == s.startTimes.Keys
    && forall id :: id in s.accumulated ==> |s.accumulated[id]| > 0
  }

  /**
   * Records a chunk from speaker `id` received at time `now`. A speaker
   * not yet tracked gets an empty list and the start time `now`; a tracked
   * speaker keeps its start time. The chunk goes at the end of the list and
   * the store-wide last-add time becomes `now`.
   */
  function AddAudioData(s: Store, id: SpeakerId, data: Bytes, now: int): (r: Store)
    ensures id in r.accumulated
    ensures r.accumulated[id] == (if id in s.accumulated then s.accumulated[id] else []) + [data]
    ensures id in s.accumulated ==> r.startTimes == s.startTimes
    ensures id !in s.accumulated ==> r.startTimes == s.startTimes[id := now]
    ensures forall other :: other != id ==>
      (other in r.accumulated <==> other in s.accumulated)
      && (other in s.accumulated ==> r.accumulated[other] == s.accumulated[other])
    ensures r.lastAddTime == now && r.queue == s.queue
    ensures Valid(s) ==> Valid(r)
  {
    var s1 := if id in s.accumulated then s
      else s.(accumulated := s.accumulated[id := []], startTimes := s.startTimes[id := now]);
    s1.(accumulated := s1.accumulated[id := s1.accumulated[id] + [data]], lastAddTime := now)
  }

  /** The span start of `id`, defaulting to the store-wide last-add time. */
  function StartOf(s: Store, id: SpeakerId): int
  {
    if id in s.startTimes then s.startTimes[id] else s.lastAddTime
  }

  /**
   * The flush rule: the speaker has chunks and either the store has been
   * silent for more than 2000 ms or the span is older than 10000 ms. Both
   * comparisons are strict.
   */
  function ShouldMove(s: Store, id: SpeakerId, now: int): (r: bool)
    requires id in s.accumulated
    ensures r ==> |s.accumulated[id]| > 0
    ensures |s.accumulated[id]| > 0 && now - s.lastAddTime > DuringConversationMillis ==> r
    ensures |s.accumulated[id]| > 0 && id in s.startTimes && now - s.startTimes[id] > TalkMillis ==> r
    ensures (now - s.lastAddTime <= DuringConversationMillis
      && (id in s.startTimes ==> now - s.startTimes[id] <= TalkMillis)) ==> !r
    ensures id !in s.startTimes ==> (r <==> |s.accumulated[id]| > 0 && now - s.lastAddTime > DuringConversationMillis)
  {
    && |s.accumulated[id]| > 0
    && (now - s.lastAddTime > DuringConversationMillis || now - StartOf(s, id) > TalkMillis)
  }

  /**
   * Flushes speaker `id`: its chunks, joined in arrival order, are queued
   * as one utterance, its list and start time are dropped, and the
   * last-add time becomes the clock reading `stamp`.
   */
  function MoveDataToQueue(s: Store, id: SpeakerId, stamp: int): (r: Store)
    requires id in s.accumulated
    ensures r.queue.items == s.queue.items + [Utterance(id, Concat(s.accumulated[id]))]
    ensures |r.queue.items[|s.queue.items|].data| == TotalLength(s.accumulated[id])
    ensures r.accumulated == s.accumulated - {id} && r.startTimes == s.startTimes - {id}
    ensures r.lastAddTime == stamp
    ensures Valid(s) ==> Valid(r)
  {
    ConcatLength(s.accumulated[id]);
    Store(s.accumulated - {id}, s.startTimes - {id}, stamp, Fifo.Enqueue(s.queue, Utterance(id, Concat(s.accumulated[id]))))
  }

  /** One visit of the pass: flush `id` if it is tracked and eligible, else do nothing. */
  function Visit(s: Store, id: SpeakerId, now: int, stamp: int): Store
  {
    if id in s.accumulated && ShouldMove(s, id, now) then MoveDataToQueue(s, id, stamp) else s
  }

  /** The utterances a pass appended to the queue. */
  function Flushed(s: Store, r: Store): seq<Utterance>
    requires |s.queue.items| <= |r.queue.items|
  {
    r.queue.items[|s.queue.items|..]
  }

  /**
   * One pass of the boundary check at time `now`, visiting the speakers in
   * `order`; `stamps[k]` is the clock reading taken if the `k`-th visit
   * flushes.
   */
  function CheckAndMoveData(s: Store, now: int, order: seq<SpeakerId>, stamps: seq<int>): (r: Store)
    requires |stamps| == |order|
    ensures r.accumulated.Keys <= s.accumulated.Keys
    ensures forall id :: id in r.accumulated ==> r.accumulated[id] == s.accumulated[id]
    ensures |s.queue.items| <= |r.queue.items| && r.queue.items[..|s.queue.items|] == s.queue.items
    ensures |Flushed(s, r)| == 0 ==> r == s
    decreases |order|
  {
    if |order| == 0 then s
    else CheckAndMoveData(Visit(s, order[0], now, stamps[0]), now, order[1..], stamps[1..])
  }

  /** Whether visiting `id` flushes it. */
  predicate Flushes(s: Store, id: SpeakerId, now: int)
  {
    id in s.accumulated && ShouldMove(s, id, now)
  }

  /** The utterances of a pass are those of its first visit followed by those of the rest. */
  lemma PassUnfold(s: Store, now: int, order: seq<SpeakerId>, stamps: seq<int>)
    requires |stamps| == |order| > 0
    ensures var s' := Visit(s, order[0], now, stamps[0]);
      var r := CheckAndMoveData(s', now, order[1..], stamps[1..]);
      && |s.queue.items| <= |s'.queue.items| <= |r.queue.items|
      && Flushed(s, r) == Flushed(s, s') + Flushed(s', r)
  {
    var s' := Visit(s, order[0], now, stamps[0]);
    var r := CheckAndMoveData(s', now, order[1..], stamps[1..]);
    var n, n' := |s.queue.items|, |s'.queue.items|;
    assert n <= n';
    assert r.queue.items[..n'] == s'.queue.items;
    assert s'.queue.items[..n] == s.queue.items;
    assert r.queue.items[n..] == r.queue.items[n..n'] + r.queue.items[n'..];
    assert r.queue.items[n..n'] == s'.queue.items[n..];
  }

  /** A visit that flushes queues exactly that speaker's utterance and removes it; any other visit changes nothing. */
  lemma VisitEffect(s: Store, id: SpeakerId, now: int, stamp: int)
    ensures var s' := Visit(s, id, now, stamp);
      && |s.queue.items| <= |s'.queue.items|
      && (Flushes(s, id, now) ==>
            && Flushed(s, s') == [Utterance(id, Concat(s.accumulated[id]))]
            && id !in s'.accumulated && s'.lastAddTime == stamp)
      && (!Flushes(s, id, now) ==> s' == s && Flushed(s, s') == [])
  {
  }

  /**
   * Every utterance a pass queues belongs to a speaker the pass removed and
   * carries that speaker's chunks joined in arrival order.
   */
  lemma {:induction false} PassFlushedContent(s: Store, now: int, order: seq<SpeakerId>, stamps: seq<int>)
    requires |stamps| == |order|
    ensures var r := CheckAndMoveData(s, now, order, stamps);
      forall k :: 0 <= k < |Flushed(s, r)| ==>
        var u := Flushed(s, r)[k];
        u.id in s.accumulated && u.id !in r.accumulated && u.data == Concat(s.accumulated[u.id])
    decreases |order|
  {
    if |order| > 0 {
      var s' := Visit(s, order[0], now, stamps[0]);
      var r := CheckAndMoveData(s', now, order[1..], stamps[1..]);
      PassUnfold(s, now, order, stamps);
      VisitEffect(s, order[0], now, stamps[0]);
      PassFlushedContent(s', now, order[1..], stamps[1..]);
    }
  }

  /** Every speaker a pass removes has its utterance queued by that pass. */
  lemma {:induction false} PassFlushedComplete(s: Store, now: int, order: seq<SpeakerId>, stamps: seq<int>)
    requires |stamps| == |order|
    ensures var r := CheckAndMoveData(s, now, order, stamps);
      forall id :: id in s.accumulated && id !in r.accumulated ==>
        exists k :: 0 <= k < |Flushed(s, r)| && Flushed(s, r)[k].id == id
    decreases |order|
  {
    if |order| > 0 {
      var s' := Visit(s, order[0], now, stamps[0]);
      var r := CheckAndMoveData(s', now, order[1..], stamps[1..]);
      PassUnfold(s, now, order, stamps);
      VisitEffect(s, order[0], now, stamps[0]);
      PassFlushedComplete(s', now, order[1..], stamps[1..]);
      var head := Flushed(s, s');
      var tail := Flushed(s', r);
      forall id | id in s.accumulated && id !in r.accumulated
        ensures exists k :: 0 <= k < |Flushed(s, r)| && Flushed(s, r)[k].id == id
      {
        if id in s'.accumulated {
          var k :| 0 <= k < |tail| && tail[k].id == id;
          assert Flushed(s, r)[|head| + k] == tail[k];
        } else {
          assert Flushed(s, r)[0].id == id;
        }
      }
    }
  }

  /** No speaker gets two utterances from one pass. */
  lemma {:induction false} PassFlushedDistinct(s: Store, now: int, order: seq<SpeakerId>, stamps: seq<int>)
    requires |stamps| == |order|
    ensures var r := CheckAndMoveData(s, now, order, stamps);
      forall j, k :: 0 <= j < k < |Flushed(s, r)| ==> Flushed(s, r)[j].id != Flushed(s, r)[k].id
    decreases |order|
  {
    if |order| > 0 {
      var s' := Visit(s, order[0], now, stamps[0]);
      var r := CheckAndMoveData(s', now, order[1..], stamps[1..]);
      PassUnfold(s, now, order, stamps);
      VisitEffect(s, order[0], now, stamps[0]);
      PassFlushedDistinct(s', now, order[1..], stamps[1..]);
      PassFlushedContent(s', now, order[1..], stamps[1..]);
    }
  }

  /** A pass drops the start times of exactly the speakers it flushed. */
  lemma {:induction false} PassStartTimes(s: Store, now: int, order: seq<SpeakerId>, stamps: seq<int>)
    requires |stamps| == |order|
    ensures var r := CheckAndMoveData(s, now, order, stamps);
      r.startTimes == s.startTimes - (s.accumulated.Keys - r.accumulated.Keys)
    decreases |order|
  {
    if |order| > 0 {
      var s' := Visit(s, order[0], now, stamps[0]);
      PassStartTimes(s', now, order[1..], stamps[1..]);
    }
  }

  /** A pass keeps the store well formed. */
  lemma {:induction false} PassValid(s: Store, now: int, order: seq<SpeakerId>, stamps: seq<int>)
    requires |stamps| == |order| && Valid(s)
    ensures Valid(CheckAndMoveData(s, now, order, stamps))
    decreases |order|
  {
    if |order| > 0 {
      PassValid(Visit(s, order[0], now, stamps[0]), now, order[1..], stamps[1..]);
    }
  }

  /** After a pass that flushed something, the last-add time is one of the flush clock readings. */
  lemma {:induction false} PassLastAddTime(s: Store, now: int, order: seq<SpeakerId>, stamps: seq<int>)
    requires |stamps| == |order|
    ensures var r := CheckAndMoveData(s, now, order, stamps);
      |Flushed(s, r)| > 0 ==> r.lastAddTime in stamps
    decreases |order|
  {
    if |order| > 0 {
      var s' := Visit(s, order[0], now, stamps[0]);
      PassUnfold(s, now, order, stamps);
      VisitEffect(s, order[0], now, stamps[0]);
      PassLastAddTime(s', now, order[1..], stamps[1..]);
    }
  }

  /** Every flush reads the clock at or after the pass's own reading (a monotone clock). */
  predicate ClockNotBefore(stamps: seq<int>, now: int)
  {
    forall k :: 0 <= k < |stamps| ==> stamps[k] >= now
  }

  /** No tracked speaker is eligible for a flush at `now`. */
  ghost predicate Quiet(s: Store, now: int)
  {
    forall id :: id in s.accumulated ==> !ShouldMove(s, id, now)
  }

  /**
   * A flush stamped no earlier than `now` cannot make another speaker
   * eligible: the silence rule is then false for everyone, and the span
   * rule still sees the same start time.
   */
  lemma FlushKeepsIneligible(s: Store, x: SpeakerId, stamp: int, id: SpeakerId, now: int)
    requires x in s.accumulated && id in s.accumulated && id != x
    requires !ShouldMove(s, id, now) && stamp >= now
    ensures id in MoveDataToQueue(s, x, stamp).accumulated
    ensures !ShouldMove(MoveDataToQueue(s, x, stamp), id, now)
  {
  }

  /**
   * After a pass that visited every tracked speaker, with a monotone
   * clock, no speaker left in the store is eligible at the same `now`.
   */
  lemma {:induction false} PassSettles(s: Store, now: int, order: seq<SpeakerId>, stamps: seq<int>)
    requires |stamps| == |order| && ClockNotBefore(stamps, now)
    requires forall id :: id in s.accumulated ==> id in order || !ShouldMove(s, id, now)
    ensures Quiet(CheckAndMoveData(s, now, order, stamps), now)
    decreases |order|
  {
    if |order| > 0 {
      var x := order[0];
      var s' := Visit(s, x, now, stamps[0]);
      forall id | id in s'.accumulated
        ensures id in order[1..] || !ShouldMove(s', id, now)
      {
        if id !in order[1..] {
          assert id == x || !ShouldMove(s, id, now);
          if Flushes(s, x, now) {
            FlushKeepsIneligible(s, x, stamps[0], id, now);
          }
        }
      }
      PassSettles(s', now, order[1..], stamps[1..]);
    }
  }

  /** A pass over a quiet store changes nothing, whatever the order. */
  lemma {:induction false} QuietPassIsIdentity(s: Store, now: int, order: seq<SpeakerId>, stamps: seq<int>)
    requires |stamps| == |order| && Quiet(s, now)
    ensures CheckAndMoveData(s, now, order, stamps) == s
    decreases |order|
  {
    if |order| > 0 {
      assert Visit(s, order[0], now, stamps[0]) == s;
      QuietPassIsIdentity(s, now, order[1..], stamps[1..]);
    }
  }

  /**
   * Idempotence of the boundary check: right after a full pass at `now`
   * (one that visited every tracked speaker, with a monotone clock), a
   * second pass at the same `now`, in any order, flushes nothing.
   */
  lemma SecondPassFlushesNothing(s: Store, now: int, order: seq<SpeakerId>, stamps: seq<int>,
                                 order2: seq<SpeakerId>, stamps2: seq<int>)
    requires |stamps| == |order| && ClockNotBefore(stamps, now)
    requires forall id :: id in s.accumulated ==> id in order
    requires |stamps2| == |order2|
    ensures var r := CheckAndMoveData(s, now, order, stamps);
      CheckAndMoveData(r, now, order2, stamps2) == r
  {
    PassSettles(s, now, order, stamps);
    QuietPassIsIdentity(CheckAndMoveData(s, now, order, stamps), now, order2, stamps2);
  }

  /**
   * A speaker not eligible when the pass starts keeps its chunk list and
   * start time through the pass, given a monotone clock.
   */
  lemma {:induction false} IneligibleUntouched(s: Store, now: int, order: seq<SpeakerId>, stamps: seq<int>, id: SpeakerId)
    requires |stamps| == |order| && ClockNotBefore(stamps, now)
    requires id in s.accumulated && !ShouldMove(s, id, now)
    ensures var r := CheckAndMoveData(s, now, order, stamps);
      && id in r.accumulated && r.accumulated[id] == s.accumulated[id]
      && (id in r.startTimes <==> id in s.startTimes)
      && (id in s.startTimes ==> r.startTimes[id] == s.startTimes[id])
    decreases |order|
  {
    PassStartTimes(s, now, order, stamps);
    if |order| > 0 {
      var x := order[0];
      var s' := Visit(s, x, now, stamps[0]);
      if Flushes(s, x, now) {
        FlushKeepsIneligible(s, x, stamps[0], id, now);
      }
      IneligibleUntouched(s', now, order[1..], stamps[1..], id);
    }
  }

  /**
   * The span rule does not depend on silence: a visited speaker whose span
   * started more than 10000 ms before `now` is always flushed.
   */
  lemma {:induction false} LongSpanFlushed(s: Store, now: int, order: seq<SpeakerId>, stamps: seq<int>, id: SpeakerId)
    requires |stamps| == |order| && id in order
    requires id in s.accumulated && |s.accumulated[id]| > 0
    requires id in s.startTimes && now - s.startTimes[id] > TalkMillis
    ensures id !in CheckAndMoveData(s, now, order, stamps).accumulated
    decreases |order|
  {
    var s' := Visit(s, order[0], now, stamps[0]);
    if order[0] == id {
      assert id !in s'.accumulated;
    } else {
      assert id in order[1..];
      LongSpanFlushed(s', now, order[1..], stamps[1..], id);
    }
  }

  /**
   * When the last add is no earlier than `now` (as right after a flush with
   * a monotone clock), every speaker the pass flushes is flushed by the span
   * rule alone: its span started more than 10000 ms before `now`.
   */
  lemma {:induction false} AllFlushesBySpan(s: Store, now: int, order: seq<SpeakerId>, stamps: seq<int>)
    requires |stamps| == |order| && ClockNotBefore(stamps, now)
    requires Valid(s) && s.lastAddTime >= now
    ensures var r := CheckAndMoveData(s, now, order, stamps);
      forall k :: 0 <= k < |Flushed(s, r)| ==>
        Flushed(s, r)[k].id in s.startTimes && now - s.startTimes[Flushed(s, r)[k].id] > TalkMillis
    decreases |order|
  {
    if |order| > 0 {
      var x := order[0];
      var s' := Visit(s, x, now, stamps[0]);
      PassUnfold(s, now, order, stamps);
      VisitEffect(s, x, now, stamps[0]);
      AllFlushesBySpan(s', now, order[1..], stamps[1..]);
      PassFlushedContent(s', now, order[1..], stamps[1..]);
    }
  }

  /**
   * The store-wide silence clock: with a monotone clock, once a pass has
   * flushed one speaker, every later flush in the same pass is by the span
   * rule. Only the first utterance of a pass can be due to silence.
   */
  lemma {:induction false} LaterFlushesBySpan(s: Store, now: int, order: seq<SpeakerId>, stamps: seq<int>)
    requires |stamps| == |order| && ClockNotBefore(stamps, now) && Valid(s)
    ensures var r := CheckAndMoveData(s, now, order, stamps);
      forall k :: 1 <= k < |Flushed(s, r)| ==>
        Flushed(s, r)[k].id in s.startTimes && now - s.startTimes[Flushed(s, r)[k].id] > TalkMillis
    decreases |order|
  {
    if |order| > 0 {
      var x := order[0];
      var s' := Visit(s, x, now, stamps[0]);
      PassUnfold(s, now, order, stamps);
      VisitEffect(s, x, now, stamps[0]);
      PassFlushedContent(s', now, order[1..], stamps[1..]);
      if Flushes(s, x, now) {
        AllFlushesBySpan(s', now, order[1..], stamps[1..]);
      } else {
        LaterFlushesBySpan(s', now, order[1..], stamps[1..]);
      }
    }
  }

  /**
   * A flushed speaker starts a fresh span: its next chunk opens a one-chunk
   * list whose start time is the time of that chunk.
   */
  lemma FreshSpanAfterFlush(s: Store, now: int, order: seq<SpeakerId>, stamps: seq<int>,
                            id: SpeakerId, data: Bytes, t: int)
    requires |stamps| == |order|
    requires id in s.accumulated && id !in CheckAndMoveData(s, now, order, stamps).accumulated
    ensures var r := AddAudioData(CheckAndMoveData(s, now, order, stamps), id, data, t);
      r.accumulated[id] == [data] && id in r.startTimes && r.startTimes[id] == t
  {
  }

  /** Three chunks from one speaker into an empty store make one three-chunk span started at the first chunk. */
  lemma ThreeAdds(s: Store, id: SpeakerId, c1: Bytes, c2: Bytes, c3: Bytes, t1: int, t2: int, t3: int)
    requires s.accumulated == map[] && s.startTimes == map[]
    ensures var s3 := AddAudioData(AddAudioData(AddAudioData(s, id, c1, t1), id, c2, t2), id, c3, t3);
      && s3.accumulated == map[id := [c1, c2, c3]] && s3.startTimes == map[id := t1]
      && s3.lastAddTime == t3 && s3.queue == s.queue
  {
    var s1 := AddAudioData(s, id, c1, t1);
    var s2 := AddAudioData(s1, id, c2, t2);
    var s3 := AddAudioData(s2, id, c3, t3);
    assert s1.accumulated.Keys == {id} && s1.accumulated[id] == [c1];
    assert s2.accumulated.Keys == {id} && s2.accumulated[id] == [c1, c2];
    assert s3.accumulated.Keys == {id} && s3.accumulated[id] == [c1, c2, c3];
  }

  /**
   * Scenario: one speaker sends three chunks into an empty store and then
   * falls silent; a pass more than 2000 ms after the last chunk queues
   * exactly one utterance, the three chunks joined in order.
   */
  lemma ThreeChunksThenSilence(s: Store, id: SpeakerId, c1: Bytes, c2: Bytes, c3: Bytes,
                               t1: int, t2: int, t3: int, now: int, stamp: int)
    requires s.accumulated == map[] && s.startTimes == map[]
    requires now - t3 > DuringConversationMillis
    ensures var s3 := AddAudioData(AddAudioData(AddAudioData(s, id, c1, t1), id, c2, t2), id, c3, t3);
      var r := CheckAndMoveData(s3, now, [id], [stamp]);
      && r.accumulated == map[] && r.startTimes == map[]
      && r.queue.items == s.queue.items + [Utterance(id, c1 + c2 + c3)]
  {
    var s3 := AddAudioData(AddAudioData(AddAudioData(s, id, c1, t1), id, c2, t2), id, c3, t3);
    ThreeAdds(s, id, c1, c2, c3, t1, t2, t3);
    assert Flushes(s3, id, now);
    var v := Visit(s3, id, now, stamp);
    assert CheckAndMoveData(s3, now, [id], [stamp]) == CheckAndMoveData(v, now, [], []);
    assert Concat([c1, c2, c3]) == c1 + c2 + c3 by {
      ConcatAppend([], c1);
      assert [] + [c1] == [c1];
      ConcatAppend([c1], c2);
      assert [c1] + [c2] == [c1, c2];
      ConcatAppend([c1, c2], c3);
      assert [c1, c2] + [c3] == [c1, c2, c3];
    }
  }

  /** Polls the oldest flushed utterance, or `None` when none is queued. */
  function TakeAudioData(s: Store): (r: (Option<Utterance>, Store))
    ensures s.queue.items == [] ==> r.0 == None && r.1 == s
    ensures s.queue.items != [] ==> r.0 == Some(s.queue.items[0]) && r.1 == s.(queue := Fifo.Queue(s.queue.items[1..]))
  {
    var (u, rest) := Fifo.Dequeue(s.queue);
    (u, s.(queue := rest))
  }
}

=== FILE: stream_track.dfy ===
/**
 * The playable track built from a Base64 identifier: construction decodes
 * the identifier into the track's bytes, and every playback reads those
 * bytes through a fresh in-memory stream. The container reader and the
 * source manager are opaque tokens; what the player does with the stream
 * is a function parameter.
 */
module StreamTrack {
  import opened Wrappers
  import opened Bytes
  import Base64
  import SeekableStream

  /** The track's metadata; only the identifier, which carries the Base64 audio, matters here. */
  datatype TrackInfo = TrackInfo(identifier: string)

  /** The container reader that will parse the stream (opaque). */
  datatype ContainerFactory = ContainerFactory(name: string)

  /** The source manager that created the track (opaque). */
  datatype SourceManager = SourceManager(name: string)

  datatype Track = Track(info: TrackInfo, bytes: Bytes, containerFactory: ContainerFactory, sourceManager: SourceManager)

  /**
   * Construction: the identifier is decoded as Base64; an identifier the
   * decoder rejects makes construction fail.
   */
  function NewTrack(info: TrackInfo, factory: ContainerFactory, manager: SourceManager): (r: Option<Track>)
    ensures r.Some? <==> Base64.Decode(info.identifier).Some?
    ensures r.Some? ==>
      && r.value.bytes == Base64.Decode(info.identifier).value
      && r.value.info == info && r.value.containerFactory == factory && r.value.sourceManager == manager
  {
    match Base64.Decode(info.identifier)
    case None => None
    case Some(bytes) => Some(Track(info, bytes, factory, manager))
  }

  /** A track whose bytes are what its identifier decodes to, as every constructed track is. */
  predicate WellFormed(t: Track)
  {
    Base64.Decode(t.info.identifier) == Some(t.bytes)
  }

  /** A shallow clone: a new track from the same info, container factory and source manager. */
  function ShallowClone(t: Track): (r: Option<Track>)
    ensures WellFormed(t) ==> r == Some(t)
  {
    NewTrack(t.info, t.containerFactory, t.sourceManager)
  }

  function GetContainerTrackFactory(t: Track): ContainerFactory
  {
    t.containerFactory
  }

  function GetSourceManager(t: Track): SourceManager
  {
    t.sourceManager
  }

  /** How the player's processing of the stream ended. */
  datatype PlayOutcome = Finished | FriendlyFailure(message: string) | OtherFailure(message: string)

  /** The player's processing of a stream (external). */
  type Player = SeekableStream.Stream -> PlayOutcome

  /** What one playback did: the stream it was given, and whether `process` returned normally or raised. */
  datatype Processed = Processed(stream: SeekableStream.Stream, result: Result<(), string>)

  /**
   * Playback: a fresh stream over the track's bytes is handed to the
   * player; a friendly failure is swallowed, any other failure propagates.
   */
  function Process(t: Track, play: Player): (r: Processed)
    ensures r.stream.position == 0 && SeekableStream.Consistent(r.stream, t.bytes)
    ensures r.result.Success? <==> !play(r.stream).OtherFailure?
    ensures r.result.Failure? ==> r.result.error == play(r.stream).message
  {
    var stream := SeekableStream.Open(t.bytes);
    match play(stream)
    case Finished => Processed(stream, Success(()))
    case FriendlyFailure(_) => Processed(stream, Success(()))
    case OtherFailure(message) => Processed(stream, Failure(message))
  }

  /**
   * The decode half of the playback round trip: a track whose identifier
   * is the Base64 text of some audio carries exactly that audio, keeps the
   * container factory and source manager it was given, and clones to itself.
   */
  lemma EncodedAudioRoundTrip(audio: Bytes, factory: ContainerFactory, manager: SourceManager)
    ensures var r := NewTrack(TrackInfo(Base64.Encode(audio)), factory, manager);
      && r.Some? && r.value.bytes == audio
      && WellFormed(r.value)
      && GetContainerTrackFactory(r.value) == factory && GetSourceManager(r.value) == manager
      && ShallowClone(r.value) == r
  {
    Base64.DecodeEncode(audio);
  }
}

=== FILE: sync_processor.dfy ===
/**
 * The synchronous-conversation processor: take one utterance from the
 * ingest queue, prepare it, wait for the conversation reply, and hand the
 * reply to a speech job. Each stage may fail, and a failure ends the call.
 * The external audio conversion is a function parameter; the session's
 * messages and the speech server's answer are inputs.
 */
module SyncProcessor {
  import opened Wrappers
  import opened Bytes
  import Pcm
  import InputQueue
  import Sessions
  import PlaybackQueue
  import Tts
  import Base64

  /** The external conversion (WAV wrapping, then resampling): converted audio, or `None` when it fails. */
  type Converter = Bytes -> Option<Bytes>

  /** Preparation: unit-gain amplification, then the external conversion. */
  function PrepareAudioData(audio: Bytes, convert: Converter): Option<Bytes>
  {
    convert(Pcm.Amplified(audio, 1))
  }

  /** A speech job handed to the background worker: whose utterance it answers, and the text to speak. */
  datatype TtsJob = TtsJob(userId: string, text: string)

  /** What one call leaves behind: the ingest queue, the session registry and the dispatched job, if any. */
  datatype Outcome = Outcome(input: InputQueue.InputQueue, sessions: Sessions.Manager, job: Option<TtsJob>)

  /**
   * One processing step. An empty queue changes nothing. Otherwise the
   * oldest utterance leaves the queue whatever happens next; a failed
   * preparation stops before the conversation call, and a missing reply
   * stops before any speech job.
   */
  function ProcessNextAudio(input: InputQueue.InputQueue, sessions: Sessions.Manager,
                            convert: Converter, events: seq<Sessions.Event>): (r: Outcome)
    ensures |input.items| == 0 ==> r == Outcome(input, sessions, None)
    ensures |input.items| > 0 ==> r.input.items == input.items[1..]
    ensures r.sessions.sessions == sessions.sessions
    ensures |input.items| > 0 && PrepareAudioData(input.items[0].data, convert).None? ==>
      r.sessions == sessions && r.job.None?
    ensures input.items == [] || input.items[0].guildId !in sessions.sessions ==> r.job.None?
    ensures r.job.Some? ==>
      && r.job.value.userId == input.items[0].userId
      && Sessions.Trim(r.job.value.text) == r.job.value.text
    ensures |input.items| > 0 && PrepareAudioData(input.items[0].data, convert).Some? ==>
      var head := input.items[0];
      var prepared := PrepareAudioData(head.data, convert).value;
      var (reply, sessions') := Sessions.SendAudioData(sessions, head.guildId, Some(prepared), events);
      && r.sessions == sessions'
      && (r.job.Some? <==> reply.Some?)
      && (reply.Some? ==> r.job.value == TtsJob(head.userId, reply.value))
      && (|prepared| == 0 ==> r.sessions == sessions && r.job.None?)
  {
    var (head, rest) := InputQueue.Dequeue(input);
    match head
    case None => Outcome(input, sessions, None)
    case Some(audioData) =>
      match PrepareAudioData(audioData.data, convert)
      case None => Outcome(rest, sessions, None)
      case Some(prepared) =>
        var (reply, sessions') := Sessions.SendAudioData(sessions, audioData.guildId, Some(prepared), events);
        Sessions.SendReplyIsTrimmed(sessions, audioData.guildId, Some(prepared), events);
        match reply
        case None => Outcome(rest, sessions', None)
        case Some(text) => Outcome(rest, sessions', Some(TtsJob(audioData.userId, text)))
  }

  /** The background half: the job's speech call and, on success, the playback enqueue. The user id only labels the job. */
  function ProcessTtsAsync(pq: PlaybackQueue.PlaybackQueue, job: TtsJob, outcome: Tts.HttpOutcome): (r: PlaybackQueue.PlaybackQueue)
    ensures Tts.CallTtsApi(outcome).None? ==> r == pq
    ensures Tts.CallTtsApi(outcome).Some? ==>
      |r.audio.items| == |pq.audio.items| + 1
      && r.audio.items[..|pq.audio.items|] == pq.audio.items
      && r.playing == pq.playing
      && Base64Decodes(r.audio.items[|pq.audio.items|], outcome.body)
  {
    Tts.RunTtsJob(pq, outcome)
  }

  /** `text` is the Base64 encoding of `audio`, as the track loader will read it back. */
  predicate Base64Decodes(text: string, audio: Bytes)
  {
    Base64.Decode(text) == Some(audio)
  }

  /**
   * A whole exchange: the oldest utterance is prepared, its session answers
   * with text fragments and completes the turn, and the speech server
   * answers 200. Then exactly one speech job answers that user with the
   * trimmed text, and its audio joins the playback queue in a form that
   * decodes back to the speech server's bytes.
   */
  lemma FullExchange(input: InputQueue.InputQueue, sessions: Sessions.Manager, convert: Converter,
                     fragments: seq<Sessions.Event>, turnEnd: Sessions.Event,
                     pq: PlaybackQueue.PlaybackQueue, speech: Bytes)
    requires |input.items| > 0
    requires var head := input.items[0];
      && head.guildId in sessions.sessions
      && PrepareAudioData(head.data, convert).Some?
      && |PrepareAudioData(head.data, convert).value| > 0
      && Sessions.BufferOf(sessions, head.guildId) == ""
      && (forall k :: 0 <= k < |fragments| ==> Sessions.IsFragment(fragments[k], head.guildId))
      && Sessions.IsTurnEnd(turnEnd, head.guildId)
      && Sessions.FragmentText(fragments) != ""
    ensures var r := ProcessNextAudio(input, sessions, convert, fragments + [turnEnd]);
      && r.input.items == input.items[1..]
      && r.job == Some(TtsJob(input.items[0].userId, Sessions.Trim(Sessions.FragmentText(fragments))))
    ensures var r := ProcessNextAudio(input, sessions, convert, fragments + [turnEnd]);
      var pq' := ProcessTtsAsync(pq, r.job.value, Tts.Response(200, speech));
      |pq'.audio.items| == |pq.audio.items| + 1 && Base64Decodes(pq'.audio.items[|pq.audio.items|], speech)
  {
    var head := input.items[0];
    var prepared := PrepareAudioData(head.data, convert).value;
    var events := fragments + [turnEnd];
    var text := Sessions.Trim(Sessions.FragmentText(fragments));
    Sessions.SendReturnsTrimmedTurn(sessions, head.guildId, prepared, fragments, turnEnd);
    assert Sessions.SendAudioData(sessions, head.guildId, Some(prepared), events).0 == Some(text);
    assert InputQueue.Dequeue(input).0 == Some(head);
    assert ProcessNextAudio(input, sessions, convert, events).job == Some(TtsJob(head.userId, text));
  }

  /** An utterance whose session never completes a turn is consumed without any speech job. */
  lemma TimeoutDispatchesNothing(input: InputQueue.InputQueue, sessions: Sessions.Manager, convert: Converter,
                                 events: seq<Sessions.Event>)
    requires |input.items| > 0
    requires forall k :: 0 <= k < |events| ==> !Sessions.IsTurnEnd(events[k], input.items[0].guildId)
    ensures var r := ProcessNextAudio(input, sessions, convert, events);
      r.input.items == input.items[1..] && r.job.None?
  {
    var head := input.items[0];
    match PrepareAudioData(head.data, convert)
    case None =>
    case Some(prepared) =>
      if head.guildId in sessions.sessions && |prepared| > 0 {
        Sessions.SendTimesOutWithoutTurnEnd(sessions, head.guildId, prepared, events);
      }
  }
}

=== FILE: tts.dfy ===
/**
 * The speech-synthesis step shared by both processors: the HTTP status
 * check of the speech call, and the job that Base64-encodes a successful
 * body onto the playback queue. The HTTP exchange itself is an input.
 */
module Tts {
  import opened Wrappers
  import opened Bytes
  import Base64
  import PlaybackQueue

  /** What the speech server's HTTP exchange came to: a response, or an I/O failure or interrupt. */
  datatype HttpOutcome = Response(status: int, body: Bytes) | IoFailure

  const StatusOk: int := 200

  /** The speech call: the response body on status 200, nothing on any other status or on failure. */
  function CallTtsApi(outcome: HttpOutcome): (r: Option<Bytes>)
    ensures r.Some? <==> outcome.Response? && outcome.status == 200
    ensures r.Some? ==> r.value == outcome.body
  {
    match outcome
    case IoFailure => None
    case Response(status, body) => if status == StatusOk then Some(body) else None
  }

  /** One speech job: on success the Base64 text of the audio joins the back of the queue; otherwise nothing changes. */
  function RunTtsJob(pq: PlaybackQueue.PlaybackQueue, outcome: HttpOutcome): (r: PlaybackQueue.PlaybackQueue)
    ensures r.playing == pq.playing
    ensures CallTtsApi(outcome).None? ==> r == pq
    ensures CallTtsApi(outcome).Some? ==>
      |r.audio.items| == |pq.audio.items| + 1
      && r.audio.items[..|pq.audio.items|] == pq.audio.items
      && Base64.Decode(r.audio.items[|pq.audio.items|]) == Some(outcome.body)
  {
    match CallTtsApi(outcome)
    case None => pq
    case Some(audio) =>
      Base64.DecodeEncode(audio);
      PlaybackQueue.Enqueue(pq, Base64.Encode(audio))
  }

  /** The text a run of completed jobs leaves on the queue, in completion order. */
  function Speeches(outcomes: seq<HttpOutcome>): seq<string>
  {
    if |outcomes| == 0 then []
    else
      match CallTtsApi(outcomes[0])
      case None => Speeches(outcomes[1..])
      case Some(audio) => [Base64.Encode(audio)] + Speeches(outcomes[1..])
  }

  /** How many of the exchanges succeeded. */
  function SuccessCount(outcomes: seq<HttpOutcome>): nat
  {
    if |outcomes| == 0 then 0
    else (if CallTtsApi(outcomes[0]).Some? then 1 else 0) + SuccessCount(outcomes[1..])
  }

  /** Jobs completing one after another, in the order given. */
  function RunTtsJobs(pq: PlaybackQueue.PlaybackQueue, outcomes: seq<HttpOutcome>): (r: PlaybackQueue.PlaybackQueue)
    ensures r.playing == pq.playing
    decreases |outcomes|
  {
    if |outcomes| == 0 then pq
    else RunTtsJobs(RunTtsJob(pq, outcomes[0]), outcomes[1..])
  }

  /** Completed jobs append exactly their speeches, in completion order, and nothing else. */
  lemma {:induction false} RunTtsJobsAppends(pq: PlaybackQueue.PlaybackQueue, outcomes: seq<HttpOutcome>)
    ensures RunTtsJobs(pq, outcomes).audio.items == pq.audio.items + Speeches(outcomes)
    decreases |outcomes|
  {
    if |outcomes| > 0 {
      var next := RunTtsJob(pq, outcomes[0]);
      RunTtsJobsAppends(next, outcomes[1..]);
      match CallTtsApi(outcomes[0])
      case None =>
      case Some(audio) =>
        assert next.audio.items == pq.audio.items + [Base64.Encode(audio)];
    }
  }

  /** One speech per successful job. */
  lemma {:induction false} SpeechCount(outcomes: seq<HttpOutcome>)
    ensures |Speeches(outcomes)| == SuccessCount(outcomes)
    decreases |outcomes|
  {
    if |outcomes| > 0 {
      SpeechCount(outcomes[1..]);
    }
  }

  /** N jobs that all succeed leave exactly N more items on the queue. */
  lemma AllSucceedAddsN(pq: PlaybackQueue.PlaybackQueue, outcomes: seq<HttpOutcome>)
    requires forall k :: 0 <= k < |outcomes| ==> outcomes[k].Response? && outcomes[k].status == 200
    ensures |RunTtsJobs(pq, outcomes).audio.items| == |pq.audio.items| + |outcomes|
  {
    RunTtsJobsAppends(pq, outcomes);
    SpeechCount(outcomes);
    AllSucceedCount(outcomes);
  }

  lemma {:induction false} AllSucceedCount(outcomes: seq<HttpOutcome>)
    requires forall k :: 0 <= k < |outcomes| ==> outcomes[k].Response? && outcomes[k].status == 200
    ensures SuccessCount(outcomes) == |outcomes|
    decreases |outcomes|
  {
    if |outcomes| > 0 {
      AllSucceedCount(outcomes[1..]);
    }
  }

  /** Speeches distribute over a split of the completion order. */
  lemma {:induction false} SpeechesAppend(a: seq<HttpOutcome>, b: seq<HttpOutcome>)
    ensures Speeches(a + b) == Speeches(a) + Speeches(b)
    decreases |a|
  {
    if |a| == 0 {
      assert a + b == b;
    } else {
      assert (a + b)[1..] == a[1..] + b;
      SpeechesAppend(a[1..], b);
    }
  }

  /** Taking one element out of a sequence takes it out of the multiset. */
  lemma RemoveOne(xs: seq<HttpOutcome>, i: nat)
    requires i < |xs|
    ensures multiset(xs) == multiset(xs[..i] + xs[i + 1..]) + multiset{xs[i]}
  {
    assert xs == xs[..i] + [xs[i]] + xs[i + 1..];
  }

  /** Equal multisets stay equal after one copy of the same element leaves both. */
  lemma MultisetCancel(a: multiset<HttpOutcome>, b: multiset<HttpOutcome>, x: HttpOutcome)
    requires a + multiset{x} == b + multiset{x}
    ensures a == b
  {
    forall y ensures a[y] == b[y] {
      assert (a + multiset{x})[y] == (b + multiset{x})[y];
    }
  }

  /** The speeches of a sequence are those without element `i`, plus that element's. */
  lemma SpeechesRemoveOne(xs: seq<HttpOutcome>, i: nat)
    requires i < |xs|
    ensures multiset(Speeches(xs)) == multiset(Speeches(xs[..i] + xs[i + 1..])) + multiset(Speeches([xs[i]]))
  {
    var before, after := xs[..i], xs[i + 1..];
    assert xs == before + ([xs[i]] + after);
    SpeechesAppend(before, [xs[i]] + after);
    SpeechesAppend([xs[i]], after);
    SpeechesAppend(before, after);
  }

  /**
   * The queued speeches do not depend on which job finishes first: any two
   * completion orders of the same jobs queue the same multiset of items.
   */
  lemma {:induction false} SpeechesOrderIndependent(first: seq<HttpOutcome>, second: seq<HttpOutcome>)
    requires multiset(first) == multiset(second)
    ensures multiset(Speeches(first)) == multiset(Speeches(second))
    decreases |first|
  {
    if |first| == 0 {
      assert |second| == |multiset(second)| == 0;
    } else {
      var x := first[0];
      assert x in multiset(second);
      var i :| 0 <= i < |second| && second[i] == x;
      var tail, rest := first[1..], second[..i] + second[i + 1..];
      ShrinkBoth(first, second, i);
      SpeechesOrderIndependent(tail, rest);
      SpeechesRemoveOne(first, 0);
      SpeechesRemoveOne(second, i);
      assert first[..0] + first[1..] == tail;
    }
  }

  /** Removing the same element from two orderings of the same jobs leaves two orderings of the same jobs. */
  lemma ShrinkBoth(first: seq<HttpOutcome>, second: seq<HttpOutcome>, i: nat)
    requires multiset(first) == multiset(second) && |first| > 0
    requires i < |second| && second[i] == first[0]
    ensures multiset(first[1..]) == multiset(second[..i] + second[i + 1..])
  {
    RemoveOne(first, 0);
    RemoveOne(second, i);
    assert first[..0] + first[1..] == first[1..];
    MultisetCancel(multiset(first[1..]), multiset(second[..i] + second[i + 1..]), first[0]);
  }
}

=== FILE: wrappers.dfy ===
/** Failure-carrying values used where the Java code returns null or throws. */
module Wrappers {

  /** A value that may be absent; `None` stands for Java's `null`. */
  datatype Option<+T> = None | Some(value: T)

  /** The outcome of an operation that may throw. */
  datatype Result<+T, +E> = Success(value: T) | Failure(error: E)
}
